=== FILE: README.md ===
# code-gen layout compiler: a Dafny model of its core

`code-gen` compiles a JSON schema of records and tagged unions into C++ struct
layouts. This project models the parts of it that hold logic, and proves what
they compute:

- **Bit-math helpers** (`Utilities`, `Int32Arithmetic`).
  - `NextPowerOfTwo` and the SWAR `CountBitsSet` work on `bv32`, so every
    `uint` operation wraps exactly as in C#.
  - `GetMinimumBitsForInt` gives the width of a union's discriminant.
  - `AddWithAlignment` works on 32-bit `int`s, with C#'s truncating `%` and
    unchecked wrap-around written out.
- **The generic bin packer** (`EnumerableExtensions`, with the LINQ operators it
  uses in `Linq`). The packer orders the items by descending size with a stable
  sort. Each item goes into the first bin whose recorded size accepts it, and
  otherwise opens a new bin.
  - The C# code writes a bin's new size into a copy of the bin's value tuple.
    A bin therefore keeps the size it was created with for good. The model
    reproduces this.
  - `ThreeHalvesShareOneBin` shows the consequence: three items of size 32 end
    up in one bin of capacity 64.
- **Part generation and bit-field packing** (`CodeGenerator`).
  - The table of intrinsic types and `LookupType`.
  - The flattening of a record into layout parts. Leaf properties become
    fields. Each inline union yields, in order:
    - a state header `Union{id}State`, sized by `GetMinimumBitsForInt(case count)`;
    - every header hoisted out of its cases;
    - a body whose children are one case part per case.
  - Union ids are handed out from 0 for each type.
  - `BinPackBitFields`: first-fit-decreasing into 64-bit groups with running
    sums. It throws on a part of 64 bits or more.
  - The first two steps of `GenerateType`.
- **The schema** (`Schema`). Records, inline unions nested to any depth, and
  top-level unions with named cases. A property or type is a union exactly when
  its `Cases` array is present.

The exceptions the core raises on its own inputs are the `Failure` cases of a
`Result`: an unknown type name, a null `Properties` or `Cases` array, `Max` of
an empty sequence and a bit field of 64 bits or more. Two exceptions are not
modelled that way. The division by zero and the overflow of `AddWithAlignment`
are excluded by its precondition. Null elements inside the schema's arrays
cannot be written in the model. Both are listed under "## Left out".

The methods mirror the C# loops (`GenerateParts`, the case and property loops
of `GenerateUnionPropertyParts`, `BinPackBitFields`, `BinPack`). Each is proved
equal to a specification function, and the properties are lemmas about those
functions.

Three behaviours of the code are easy to miss, and the model follows them:

- **Discriminant width.** For `n >= 3` cases `GetMinimumBitsForInt` computes
  `ceil(log2(n - 2))`, so three cases get 0 bits and four cases get 1 bit
  (`Utilities.GetMinimumBitsForIntThreeAndFour`).
- **Empty cases.** `Max` over a case with no properties throws. The model
  returns `EmptySequence` (`CodeGenerator.MaxType`).
- **Alignment 0.** Union headers have alignment 0. So does `bool` in the
  intrinsic table, so the zero-aligned parts of line 140 include `bool` fields.

Four spots in `CodeGenerator.cs` do not compile, and the model completes them by
their evident intent:

- `nextUnionID` is declared at `CodeGen/CodeGenerator.cs:134`, a local of
  `GenerateType`. It is used at line 184, inside `GenerateUnionPropertyParts`,
  which is local to the sibling function `GenerateParts`, where it is not in
  scope. The model threads one counter per type from 0 through `GenerateParts`.
- `CodeGen/CodeGenerator.cs:219` refers to an undefined `caseChildren`; the model
  uses the case's collected parts (`caseProperties`).
- `CodeGen/CodeGenerator.cs:225` is a truncated constructor call; the model
  completes it as a body part named `""` with the union's type, its union id,
  the enclosing case id and the case parts as children.
- `BinPackBitFields` has no `return`. It is declared to return `CppPart[]`, but
  the only value at hand is `bins`, a list of groups. The model returns the
  groups, a `seq<seq<Part>>`, rather than flat parts.

## Model

| member | source | states |
|---|---|---|
| Utilities.NextPowerOfTwo | CodeGen/Utilities.cs:11-22 | for 1 <= v <= 2^31 the result r is a power of two with r/2 < v <= r, the least one at or above v; 0 and every v above 2^31 wrap around to 0 through the `uint` decrement and increment |
| Utilities.NextPowerOfTwoIdempotent | CodeGen/Utilities.cs:11-22 | a power of two is returned unchanged |
| Utilities.MinimumBitsIsCeilLog2 | CodeGen/Utilities.cs:38-39 | popcount(NextPowerOfTwo(m) - 1) is exactly k for every m with 2^(k-1) < m <= 2^k |
| Utilities.CountBitsSet | CodeGen/Utilities.cs:24-29 | the SWAR count equals the number of one bits of its argument, counted bit by bit, and is at most 32 |
| Utilities.TopByteIsByteSum | CodeGen/Utilities.cs:28 | the wrapping multiply by 0x01010101 leaves the sum of the four byte counts in the top byte |
| Utilities.PopCountAtMost32 | CodeGen/Utilities.cs:24-29 | the count of one bits is at most 32 |
| Utilities.LowMaskOnes | CodeGen/Utilities.cs:39 | 2^k - 1 has exactly k one bits |
| Utilities.GetMinimumBitsForInt | CodeGen/Utilities.cs:31-40 | 1 for every n <= 2, and never more than 32 |
| Utilities.GetMinimumBitsForIntIsCeilLog2 | CodeGen/Utilities.cs:31-40 | for n >= 3 the width is ceil(log2(n - 2)): exactly k bits when 2^(k-1) < n - 2 <= 2^k |
| Utilities.GetMinimumBitsForIntThreeAndFour | CodeGen/Utilities.cs:38-39 | three cases get 0 bits and four cases get 1 bit, i.e. ceil(log2(n - 2)) and not ceil(log2 n) |
| Utilities.GetMinimumBitsForIntFiveAndSix | CodeGen/Utilities.cs:38-39 | five and six cases get 2 bits |
| Utilities.GetMinimumBitsForIntSevenToTen | CodeGen/Utilities.cs:38-39 | seven to ten cases get 3 bits |
| Utilities.GetMinimumBitsForIntLargest | CodeGen/Utilities.cs:38-39 | int.MaxValue cases get 31 bits |
| Utilities.AddWithAlignment | CodeGen/Utilities.cs:42-51 | an empty block takes the item's size with no padding; the division by a zero alignment of a non-empty block is excluded by the precondition |
| Utilities.AddWithAlignmentPadding | CodeGen/Utilities.cs:49-50 | for a positive block and alignment the padding p has 1 <= p <= alignment and makes the block aligned, and an already aligned block still gets p = alignment |
| Int32Arithmetic.CsRemainder | CodeGen/Utilities.cs:49 | C#'s `%`: differs from the dividend by a multiple of the divisor, is smaller than it in magnitude and takes the dividend's sign |
| Int32Arithmetic.Wrap32 | CodeGen/Utilities.cs:50 | unchecked `int` arithmetic: congruent modulo 2^32 to the exact result, and equal to it when that fits |
| Linq.OrderByDescendingSortsPermutation | CodeGen/EnumerableExtensions.cs:25 | `OrderByDescending` returns its input rearranged, keys never increasing |
| Linq.OrderByDescendingStable | CodeGen/EnumerableExtensions.cs:25 | the sort is stable: the items with any one key keep their input order |
| Linq.OrderByDescendingOfSorted | CodeGen/EnumerableExtensions.cs:25 | an input already in descending order is left as it is |
| Linq.Reverse | CodeGen/CodeGenerator.cs:199 | `Reverse` has the same length and the elements in opposite order |
| Linq.MaxIsGreatest | CodeGen/CodeGenerator.cs:215-218 | `Max` of a non-empty sequence is one of its elements and no element exceeds it |
| Schema.PropertyUnionIgnoresLeafFields | CodeGen/Schema.cs:15-26 | a property is a union exactly when `Cases` is present, whatever its `Name` and `Type` |
| Schema.TypeUnionIgnoresProperties | CodeGen/Schema.cs:34-46 | a type is a union exactly when `Cases` is present, whatever its `Properties`; otherwise it is a record |
| Schema.NestingIsUnbounded | CodeGen/Schema.cs:10-26 | for every depth there is an inline union nested that deep through its cases' properties |
| EnumerableExtensions.FirstFit | CodeGen/EnumerableExtensions.cs:27-33 | the first bin whose recorded size accepts the item: every earlier bin refuses it, and it accepts unless it is the default |
| EnumerableExtensions.FindAvailableBin | CodeGen/EnumerableExtensions.cs:27-33 | the query with `FirstOrDefault` finds the first-fit bin |
| EnumerableExtensions.PlaceKeepsLayout | CodeGen/EnumerableExtensions.cs:33-42 | placing one item keeps the first-fit layout with frozen sizes |
| EnumerableExtensions.PlaceAddsItem | CodeGen/EnumerableExtensions.cs:33-42 | placing one item adds exactly that item, and at most one bin |
| EnumerableExtensions.PackedIsFirstFit | CodeGen/EnumerableExtensions.cs:25-42 | every bin is non-empty and records sumSelector(0, first item); each later item passed against that recorded size; each item was refused by every bin listed before its own |
| EnumerableExtensions.PlaceTaken | CodeGen/EnumerableExtensions.cs:33-42 | placing the next item, taken after all placed ones, keeps the bins in taking order: the item goes to the end of its bin, or a new bin at the end of the list |
| EnumerableExtensions.PackedPrefixPositions | CodeGen/EnumerableExtensions.cs:25-42 | after the first k items, every bin item has a position below k in the input, increasing within a bin, first positions increasing across bins, none claimed twice |
| EnumerableExtensions.PackedInTakingOrder | CodeGen/EnumerableExtensions.cs:25-44 | each bin lists its items in the order the loop took them, and the bins come in the order they were created, so "listed before" is "created before" |
| EnumerableExtensions.PackedHoldsItems | CodeGen/EnumerableExtensions.cs:25-42 | the bins hold exactly the items, as a multiset, in no more bins than items |
| EnumerableExtensions.PackedBinsDescending | CodeGen/EnumerableExtensions.cs:25-36 | items placed in descending order are listed in every bin in the order they were taken (which pins the order of equal keys), so with keys never increasing |
| EnumerableExtensions.TakenFromSortedIsSorted | CodeGen/EnumerableExtensions.cs:25-36 | bins filled in taking order from a descending sequence list their items with keys never increasing |
| EnumerableExtensions.FirstFitDecreasing | CodeGen/EnumerableExtensions.cs:23-45 | the packer's result is a first-fit layout of the input items, filled in the order the sorted items are taken (bins in creation order, each bin's items in the order taken), each bin in descending size order, with no more bins than items |
| EnumerableExtensions.BinPack | CodeGen/EnumerableExtensions.cs:17-46 | the loop over bins updated in place equals the specification, and so has every property above |
| EnumerableExtensions.BinPackBySize | CodeGen/EnumerableExtensions.cs:9-15 | the summing overload holds the items, and every bin records the size of its first item |
| EnumerableExtensions.SumBySizeFromEmpty | CodeGen/EnumerableExtensions.cs:14 | the summing selector from 0 is the item's size |
| EnumerableExtensions.ThreeHalvesShareOneBin | CodeGen/EnumerableExtensions.cs:29-37 | sizes 32, 32, 32 with capacity 64 end in one bin that still records 32 |
| EnumerableExtensions.OversizedItemGetsOwnBin | CodeGen/EnumerableExtensions.cs:9-15 | with non-negative sizes no two of which add up past int.MaxValue, every item larger than the capacity sits alone in its bin: no other item joins it |
| EnumerableExtensions.LateBinIsListLayout | CodeGen/EnumerableExtensions.cs:27-41 | sizes 50, 40, 10 in bins of 64: [[40, 10], [50]] passes every first-fit clause that compares bins by list position |
| EnumerableExtensions.LateBinIsNotTakingOrder | CodeGen/EnumerableExtensions.cs:25-41 | yet [[40, 10], [50]] is not in taking order for 50, 40, 10, since 40 is taken after 50; only the packer's [[50, 10], [40]] meets both |
| EnumerableExtensions.HundredAndTenPacking | CodeGen/EnumerableExtensions.cs:39-42 | sizes 100 and 10 with capacity 64 raise no error: 100 gets a bin of its own recording 100, and 10 a second bin |
| CodeGenerator.ToDictionaryMapsNames | CodeGen/CodeGenerator.cs:124 | with distinct names the dictionary has exactly those names, each mapped to its type |
| CodeGenerator.IntrinsicNamesDistinct | CodeGen/CodeGenerator.cs:107-120 | the intrinsic names are distinct, so building the dictionary cannot throw |
| CodeGenerator.IntrinsicTypeShapes | CodeGen/CodeGenerator.cs:107-120 | `bool` is alignment 0 and 1 bit; every other intrinsic has 8, 16, 32 or 64 bits and alignment bits/8 |
| CodeGenerator.LookupType | CodeGen/CodeGenerator.cs:252-262 | the table's entry for a known name, and an "Unknown type" failure naming it exactly when it is missing |
| CodeGenerator.LookupIntrinsic | CodeGen/CodeGenerator.cs:252-262 | in the starting table every intrinsic is found under its name, and nothing else is found |
| CodeGenerator.ParseNatToString | CodeGen/CodeGenerator.cs:187 | the decimal form of a union id reads back as the id |
| CodeGenerator.UnionStateNameInjective | CodeGen/CodeGenerator.cs:187 | different unions get different `Union{id}State` names |
| CodeGenerator.MaxType | CodeGen/CodeGenerator.cs:215-218 | the max over parts fails with `EmptySequence` exactly when there are no parts |
| CodeGenerator.MaxTypeIsWidest | CodeGen/CodeGenerator.cs:215-218 | a case's or union's type is anonymous, its alignment and bits are the maxima (not sums) over its parts, each attained by some part |
| CodeGenerator.UnionPartsEndWithBody | CodeGen/CodeGenerator.cs:224-225 | a union's parts end with its body, of its own id and enclosing case, typed the widest of its cases |
| CodeGenerator.PropertyStepAddsOne | CodeGen/CodeGenerator.cs:195-212 | each property of a case adds one part to the case, valid in the case. A leaf adds its looked-up field with union id -1 and changes nothing else. A nested union adds its last part, its body, with the next free id; every other part of the union goes to the hoisted list in reverse order, and the counter moves past the union's ids |
| CodeGenerator.PropertyStepPart | CodeGen/CodeGenerator.cs:197-212 | one property adds the part it contributes: a leaf its field typed by the table, a nested union the last of its parts, generated with the id that part carries |
| CodeGenerator.PropertyPartsAt | CodeGen/CodeGenerator.cs:195-213 | each collected part is the part its own property contributes |
| CodeGenerator.PropsFromCollects | CodeGen/CodeGenerator.cs:194-213 | a case collects, in property order, the part each property contributes (a leaf's field with name, looked-up type, union id -1 and the case id; a nested union's body), every one valid in that case |
| CodeGenerator.CaseStepAddsCasePart | CodeGen/CodeGenerator.cs:192-221 | each case adds one case part of the union's id and enclosing case, whose children are the parts its properties contribute, one each, in order, at least one, and whose type is the widest of its children |
| CodeGenerator.CasePartsAt | CodeGen/CodeGenerator.cs:189-222 | each collected case part is the case part of its own case |
| CodeGenerator.CasesFromCollects | CodeGen/CodeGenerator.cs:189-222 | the cases give one case part each, in case order |
| CodeGenerator.UnionPartsShape | CodeGen/CodeGenerator.cs:182-225 | a union that generates has cases that all have properties; its parts run from its header (id, enclosing case, alignment 0, GetMinimumBitsForInt(case count) bits) to its body holding one case part per case, in case order, each holding the parts its case's properties contribute |
| CodeGenerator.UnionPartsIds | CodeGen/CodeGenerator.cs:184-207 | a union takes the next free id for its first part; the parts between its header and its body belong to nested unions numbered above it; all its parts lie in the range it used; all parts but the body are headers (`Union{id}State`, anonymous type of alignment 0, no children), exactly one for each id used |
| CodeGenerator.UnionPartsHeaderIds | CodeGen/CodeGenerator.cs:184-225 | the headers among a union's parts carry each id the union used exactly once; its body is no header |
| CodeGenerator.CasesFromIds | CodeGen/CodeGenerator.cs:191-222 | the loop over cases only hands out ids upward, and what it hoists are headers, one for each id handed out |
| CodeGenerator.CaseStepIds | CodeGen/CodeGenerator.cs:192-221 | one case only hands out ids upward, and what it hoists are headers, one for each id handed out |
| CodeGenerator.PropsFromIds | CodeGen/CodeGenerator.cs:195-213 | the properties of a case only hand out ids upward, and what they hoist are headers, one for each id handed out |
| CodeGenerator.PropertyStepIds | CodeGen/CodeGenerator.cs:197-207 | a nested union re-yields, through `Skip(1)` of the reversed parts, only headers, one for each id in its own range, and no body |
| CodeGenerator.HoistedReversedTail | CodeGen/CodeGenerator.cs:199-207 | reversing a union's parts and skipping the first (the body) leaves exactly its headers |
| CodeGenerator.HeaderIdsInRange | CodeGen/CodeGenerator.cs:184 | headers whose ids form a range once each lie in that range and have pairwise different ids |
| CodeGenerator.GenerateUnionPropertyParts | CodeGen/CodeGenerator.cs:182-226 | the header, the hoisted headers and the body equal the specification of the union's parts |
| CodeGenerator.GenerateCases | CodeGen/CodeGenerator.cs:189-222 | the loop over cases equals its specification |
| CodeGenerator.GenerateCase | CodeGen/CodeGenerator.cs:192-221 | one turn of the loop over cases equals its specification |
| CodeGenerator.CollectCaseProperties | CodeGen/CodeGenerator.cs:194-213 | the loop over a case's properties, with reversal and hoisting of nested unions, equals its specification |
| CodeGenerator.GenerateParts | CodeGen/CodeGenerator.cs:156-180 | the loop over a record's properties, with ids counted from 0, equals the specification of the type's parts |
| CodeGenerator.TypeParts | CodeGen/CodeGenerator.cs:158-161 | a union type yields no parts at all |
| CodeGenerator.TopFromLeaves | CodeGen/CodeGenerator.cs:164-179 | over leaves of known types the loop adds their fields in order |
| CodeGenerator.RecordOfLeaves | CodeGen/CodeGenerator.cs:162-179 | a record of known leaves yields one part per property, in order, with its name, its looked-up type, union id -1 and case id -1 |
| CodeGenerator.TopStepFields | CodeGen/CodeGenerator.cs:166-178 | one property of a record adds its field when it is a leaf, and no field when it is a union |
| CodeGenerator.TopFromFields | CodeGen/CodeGenerator.cs:164-179 | the loop over a record's properties adds the fields of its leaf properties, in order, and unions add none |
| CodeGenerator.RecordFields | CodeGen/CodeGenerator.cs:162-179 | for every record, with or without unions, the parts of no union are exactly the fields of the leaf properties, one each, in property order, named and typed as their properties |
| CodeGenerator.UnionPartsNoFields | CodeGen/CodeGenerator.cs:182-225 | a union yields no part of union id -1, however deep its nesting |
| CodeGenerator.TopFromUnknownLeaf | CodeGen/CodeGenerator.cs:164-178 | a leaf of unknown type at or after the current property makes the loop fail |
| CodeGenerator.UnknownLeafFails | CodeGen/CodeGenerator.cs:175-178 | a record with a leaf of unknown type yields an error |
| CodeGenerator.TopFromIds | CodeGen/CodeGenerator.cs:164-173 | every part of a record is a plain field or belongs to a union numbered below the next free id, which only grows |
| CodeGenerator.RecordIds | CodeGen/CodeGenerator.cs:134-187 | union ids start from 0 for each type: every part is a field or belongs to a union numbered from 0 up to the count handed out |
| CodeGenerator.TopFromHeaders | CodeGen/CodeGenerator.cs:164-173 | the loop over a record's properties yields one header for each union id it hands out |
| CodeGenerator.RecordHeaders | CodeGen/CodeGenerator.cs:134-187 | every union of a type, top-level or nested, yields exactly one header: each id from 0 up to the count handed out has one header, and no two headers share an id or a state field name |
| CodeGenerator.FirstBitFieldBin | CodeGen/CodeGenerator.cs:241 | `Find` returns the first group whose running sum leaves room for the part within 64 bits, every earlier group having no room |
| CodeGenerator.PlaceBitFieldFits | CodeGen/CodeGenerator.cs:241-248 | placing a part narrower than 64 bits keeps every group non-empty and within 64 bits |
| CodeGenerator.PlaceBitFieldWidestFirst | CodeGen/CodeGenerator.cs:231-248 | placing a part no wider than those placed keeps every group widest first |
| CodeGenerator.PlaceBitFieldRefused | CodeGen/CodeGenerator.cs:241-248 | placing a part, no wider than any placed, keeps every part refused by every group opened before its own, as that group stood when the part was placed |
| CodeGenerator.RefusedAfterAdd | CodeGen/CodeGenerator.cs:241-243 | a group that refused a part still refuses it after taking a narrower part that fitted |
| CodeGenerator.PlaceBitFieldAdds | CodeGen/CodeGenerator.cs:241-248 | placing a part adds exactly that part, and at most one group |
| CodeGenerator.PackBitFieldsFromLayout | CodeGen/CodeGenerator.cs:234-249 | the packing loop ends with all parts packed in the layout |
| CodeGenerator.PackBitFieldsFromSucceeds | CodeGen/CodeGenerator.cs:234-249 | when all remaining parts are narrower than 64 bits the loop does not throw |
| CodeGenerator.WidestFirst | CodeGen/CodeGenerator.cs:231 | ordered by descending bits, the first part is one of the parts and the widest |
| CodeGenerator.BitFieldBinsFailure | CodeGen/CodeGenerator.cs:231-239 | `BinPackBitFields` throws exactly when some part has 64 bits or more, and then names a widest part |
| CodeGenerator.BitFieldBinsLayout | CodeGen/CodeGenerator.cs:229-250 | on success every part is in exactly one group, groups are non-empty, at most 64 bits, widest first, each part refused by every earlier group as that group stood when the part was placed (its parts at least as wide), and no more groups than parts |
| CodeGenerator.LateFillIsNoLayout | CodeGen/CodeGenerator.cs:231-248 | parts of 30, 30 and 10 bits cannot end as [[30, 10], [30]]: first fit puts the second 30 with the first |
| CodeGenerator.ThreeHalvesPackIntoTwo | CodeGen/CodeGenerator.cs:241-248 | three 32-bit parts pack as two in one group and one in a second, unlike the generic packer |
| CodeGenerator.BinPackBitFields | CodeGen/CodeGenerator.cs:229-250 | the loop over groups updated in place equals the specification |
| CodeGenerator.ZeroAligned | CodeGen/CodeGenerator.cs:140 | the filter keeps exactly the parts of alignment 0 |
| CodeGenerator.ZeroAlignedCounts | CodeGen/CodeGenerator.cs:140 | every part of alignment 0 is kept as often as it occurs, and no other part is kept |
| CodeGenerator.ZeroAlignedAppend | CodeGen/CodeGenerator.cs:140 | the filter keeps the order: filtering a concatenation concatenates the filtered sides |
| CodeGenerator.TypeLayoutRejectsWideParts | CodeGen/CodeGenerator.cs:137-141 | since line 141 packs every part, a type whose parts generate fails exactly when one of them has 64 bits or more |
| CodeGenerator.SixtyFourBitFieldRejected | CodeGen/CodeGenerator.cs:141 | a record with one `s64`, `u64` or `f64` field is rejected |
| CodeGenerator.GenerateType | CodeGen/CodeGenerator.cs:132-141 | generating, packing the zero-aligned parts and packing all parts equals the specification |

## Left out

- JSON deserialisation (`CodeGen/CodeGenerator.cs:126`) and the C++ text template
  (`CodeGen/CodeGenerator.cs:129-130`, `CodeGen/CodeTemplate.Code.cs`) are foreign
  library and generated code. The model starts from the schema datatypes and
  stops at parts and groups.
- `CodeGen/DocumentVM.cs` is not part of this model. It is user-interface
  plumbing: the view model, the file read and the debounce timer.
- `CodeGen/CodeGenerator2.cs` holds only declarations, so it has no behaviour.
- `CppField`, `CppProperty`, `CppClass` and `ICppType` carry no logic.
- `GenerateType` returns null, and its layout steps 3 to 7 exist only as
  comments. The model stops after line 141 and returns the packed parts.
- The `headers` and `bodies` lists at `CodeGen/CodeGenerator.cs:168-169` are
  never used.
- `yield return` is lazy. A C# caller sees the parts produced before an
  exception. The model returns a failure for the whole type, which is what the
  `ToArray` at line 137 turns the iterator into.
- Exception messages are error values carrying the offending name (and bits),
  not the message text.
- A null `Name` or `Type` string is not modelled: strings are never null. A null
  type name would make the dictionary throw an argument exception.
- Null elements inside `Properties` or `Cases` (a `null` entry of the array, as
  opposed to a null array) are not modelled: the arrays hold values. In C# the
  generator would throw a null reference exception on such an entry.
- `Utilities.AddWithAlignment`: its precondition excludes a zero alignment of a
  non-empty block and `int.MinValue % -1`, where C# throws
  `DivideByZeroException` and `OverflowException`. The generator never calls
  it in the modelled core, so no caller can reach those exceptions.
- `CodeGenerator.RecordIds`: union ids are unbounded naturals. The C# counter
  would wrap after 2^31 unions.
- Alignments and bit widths are non-negative by type, as every producer makes
  them. This is why the checked `Sum` at line 241 cannot overflow: a group's
  running sum stays within 64.
- `Utilities.AddWithAlignmentPadding`: stated only for a positive block and
  alignment without overflow. Outside that range `AddWithAlignment` wraps as C#
  does, and no lemma describes the result.
- `EnumerableExtensions.BinPack`: returns the bins as a sequence of
  item-list/size records. The final `ToArray` copies are not modelled.

=== FILE: CodeGenerator.dfy ===
/**
 * The layout compiler's first stages: the table of intrinsic C++ types and
 * the lookup into it, the flattening of a schema type into layout parts
 * (leaf fields, union state headers and union bodies), and the packing of
 * bit-field parts into 64-bit groups.
 */
module CodeGenerator {
  import opened Wrappers
  import opened Int32Arithmetic
  import opened Utilities
  import opened Linq
  import opened Schema

  /**
   * A C# int that the generator only ever fills with a non-negative value
   * (alignments and bit widths).
   */
  type Size = x: int | 0 <= x <= MaxInt32

  /**
   * A C++ type: its name (empty for an anonymous union, a case or a union
   * header), its byte alignment (0 for a field packed into a bit field)
   * and its size in bits.
   */
  datatype TypeInfo = TypeInfo(name: string, alignment: Size, bits: Size)

  /**
   * A layout part: a field, a union header or a union body. `unionId` is
   * the union a header or body belongs to (-1 otherwise), `unionCaseId`
   * the case in which the part is valid, and `children` the cases of a
   * union body or the parts of a case.
   */
  datatype Part = Part(name: string, typ: TypeInfo, unionId: int, unionCaseId: int, children: seq<Part>)

  /** The exceptions the generator can raise. */
  datatype Error =
    | UnknownType(typeName: string)        // `LookupType` on a name not in the table
    | NullReference                        // a schema array that is absent
    | EmptySequence                        // `Max` or `First` of nothing
    | BitFieldOverflow(partName: string, bits: int)  // a part too wide for a bit field

  /** The widest bit field. */
  const MaxBitFieldBits: int := 64

  /** The intrinsic types, in declaration order. */
  const IntrinsicTypes: seq<TypeInfo> := [
    TypeInfo("bool", 0, 1),
    TypeInfo("s8", 1, 8),
    TypeInfo("u8", 1, 8),
    TypeInfo("s16", 2, 16),
    TypeInfo("u16", 2, 16),
    TypeInfo("s32", 4, 32),
    TypeInfo("u32", 4, 32),
    TypeInfo("s64", 8, 64),
    TypeInfo("u64", 8, 64),
    TypeInfo("f32", 4, 32),
    TypeInfo("f64", 8, 64)
  ]

  /**
   * `ToDictionary(type => type.Name)`: each type under its name. C#'s
   * `ToDictionary` throws on a repeated name; this model instead lets the
   * later entry overwrite the earlier one. The two agree whenever the
   * names are distinct (`NamesDistinct`), which holds for the only list
   * the generator builds its table from (`IntrinsicNamesDistinct`).
   */
  function ToDictionary(types: seq<TypeInfo>): map<string, TypeInfo> {
    if types == [] then map[]
    else ToDictionary(types[..|types| - 1])[types[|types| - 1].name := types[|types| - 1]]
  }

  /** No two entries share a name, so building the dictionary cannot throw. */
  ghost predicate NamesDistinct(types: seq<TypeInfo>) {
    forall i, j :: 0 <= i < j < |types| ==> types[i].name != types[j].name
  }

  /** With distinct names, the dictionary has exactly the names, each mapped to its entry. */
  lemma {:induction false} ToDictionaryMapsNames(types: seq<TypeInfo>)
    requires NamesDistinct(types)
    ensures ToDictionary(types).Keys == set t | t in types :: t.name
    ensures forall i :: 0 <= i < |types| ==> ToDictionary(types)[types[i].name] == types[i]
  {
    if types != [] {
      var init, last := types[..|types| - 1], types[|types| - 1];
      ToDictionaryMapsNames(init);
      assert types == init + [last];
      forall i | 0 <= i < |types|
        ensures ToDictionary(types)[types[i].name] == types[i]
      {
        if i < |init| {
          assert types[i] == init[i];
          assert types[i].name != last.name;
        }
      }
    }
  }

  /** The table the generator starts from. */
  function DiscoveredTypes(): map<string, TypeInfo> {
    ToDictionary(IntrinsicTypes)
  }

  /** The names of the intrinsic types are distinct. */
  lemma IntrinsicNamesDistinct()
    ensures NamesDistinct(IntrinsicTypes)
  {
    forall i, j | 0 <= i < j < |IntrinsicTypes|
      ensures IntrinsicTypes[i].name != IntrinsicTypes[j].name
    {
      var a, b := IntrinsicTypes[i].name, IntrinsicTypes[j].name;
      if |a| == |b| {
        assert a[0] != b[0] || a[1] != b[1] || (|a| == 3 && a[2] != b[2]);
      }
    }
  }

  /**
   * `bool` is a one-bit field packed into a bit field (alignment 0); every
   * other intrinsic is 8, 16, 32 or 64 bits wide and aligned to its size
   * in bytes.
   */
  lemma IntrinsicTypeShapes()
    ensures IntrinsicTypes[0] == TypeInfo("bool", 0, 1)
    ensures forall i :: 1 <= i < |IntrinsicTypes| ==>
      IntrinsicTypes[i].bits in {8, 16, 32, 64} && IntrinsicTypes[i].alignment * 8 == IntrinsicTypes[i].bits
  {
  }

  /** `LookupType`: the table's entry for the name, or an "Unknown type" failure. */
  function LookupType(table: map<string, TypeInfo>, name: string): (r: Result<TypeInfo, Error>)
    ensures r.Success? <==> name in table
    ensures r.Success? ==> r.value == table[name]
    ensures r.Failure? ==> r.error == UnknownType(name)
  {
    if name in table then Success(table[name]) else Failure(UnknownType(name))
  }

  /** Every intrinsic is found under its name, and nothing else is found. */
  lemma LookupIntrinsic(name: string)
    ensures LookupType(DiscoveredTypes(), name).Success? <==> exists t :: t in IntrinsicTypes && t.name == name
    ensures forall i :: 0 <= i < |IntrinsicTypes| ==>
      LookupType(DiscoveredTypes(), IntrinsicTypes[i].name) == Success(IntrinsicTypes[i])
  {
    IntrinsicNamesDistinct();
    ToDictionaryMapsNames(IntrinsicTypes);
  }

  /** The decimal digit `d`. */
  function DigitChar(d: nat): char
    requires d < 10
  {
    "0123456789"[d]
  }

  /** The value of a decimal digit character (0 for any other character). */
  function DigitValue(c: char): nat {
    if '0' <= c <= '9' then c as int - '0' as int else 0
  }

  /** The decimal form of `n`, as C# string interpolation writes a non-negative int. */
  function NatToString(n: nat): (s: string)
    ensures |s| > 0
  {
    if n < 10 then [DigitChar(n)] else NatToString(n / 10) + [DigitChar(n % 10)]
  }

  /** Reads a string of decimal digits. */
  function ParseNat(s: string): nat {
    if s == [] then 0 else ParseNat(s[..|s| - 1]) * 10 + DigitValue(s[|s| - 1])
  }

  lemma DigitRoundTrip(d: nat)
    requires d < 10
    ensures DigitValue(DigitChar(d)) == d
  {
  }

  /** Reading back the decimal form gives the number. */
  lemma {:induction false} ParseNatToString(n: nat)
    ensures ParseNat(NatToString(n)) == n
  {
    if n < 10 {
      DigitRoundTrip(n);
      assert [DigitChar(n)][..0] == [];
    } else {
      ParseNatToString(n / 10);
      DigitRoundTrip(n % 10);
      var s := NatToString(n);
      assert s[..|s| - 1] == NatToString(n / 10);
    }
  }

  /** The name of the header field holding union `id`'s current case. */
  function UnionStateName(id: nat): string {
    "Union" + NatToString(id) + "State"
  }

  /** Different unions get different state field names. */
  lemma UnionStateNameInjective(a: nat, b: nat)
    requires UnionStateName(a) == UnionStateName(b)
    ensures a == b
  {
    var sa, sb := UnionStateName(a), UnionStateName(b);
    assert |NatToString(a)| == |NatToString(b)|;
    assert sa[5..|sa| - 5] == NatToString(a);
    assert sb[5..|sb| - 5] == NatToString(b);
    ParseNatToString(a);
    ParseNatToString(b);
  }

  /** The parts generated so far and the next free union id. */
  datatype Gen = Gen(parts: seq<Part>, next: nat)

  /**
   * The state of the loop over a union's cases, or over one case's
   * properties: the headers re-yielded outward so far, the parts collected
   * for the union or the case, and the next free union id.
   */
  datatype Collected = Collected(hoisted: seq<Part>, collected: seq<Part>, next: nat)

  function Alignments(parts: seq<Part>): (s: seq<nat>)
    ensures |s| == |parts|
    ensures forall i :: 0 <= i < |parts| ==> s[i] == parts[i].typ.alignment
  {
    if parts == [] then [] else [parts[0].typ.alignment] + Alignments(parts[1..])
  }

  function BitsOf(parts: seq<Part>): (s: seq<nat>)
    ensures |s| == |parts|
    ensures forall i :: 0 <= i < |parts| ==> s[i] == parts[i].typ.bits
  {
    if parts == [] then [] else [parts[0].typ.bits] + BitsOf(parts[1..])
  }

  /**
   * The anonymous type of a case or a union: the largest alignment and the
   * largest width among its parts; `Max` of no parts throws.
   */
  function MaxType(parts: seq<Part>): (r: Result<TypeInfo, Error>)
    ensures r.Failure? <==> parts == []
    ensures r.Failure? ==> r.error == EmptySequence
  {
    if parts == [] then Failure(EmptySequence)
    else
      MaxIsGreatest(Alignments(parts));
      MaxIsGreatest(BitsOf(parts));
      Success(TypeInfo("", Max(Alignments(parts)), Max(BitsOf(parts))))
  }

  /**
   * The type of a non-empty group of parts is anonymous, as aligned as the
   * most aligned part and as wide as the widest: no part exceeds it and
   * some part attains each bound.
   */
  lemma MaxTypeIsWidest(parts: seq<Part>)
    requires parts != []
    ensures MaxType(parts).value.name == ""
    ensures forall i :: 0 <= i < |parts| ==>
      parts[i].typ.alignment <= MaxType(parts).value.alignment && parts[i].typ.bits <= MaxType(parts).value.bits
    ensures exists i :: 0 <= i < |parts| && parts[i].typ.alignment == MaxType(parts).value.alignment
    ensures exists i :: 0 <= i < |parts| && parts[i].typ.bits == MaxType(parts).value.bits
  {
    var t := MaxType(parts).value;
    var a, b := Alignments(parts), BitsOf(parts);
    MaxIsGreatest(a);
    MaxIsGreatest(b);
    var i :| 0 <= i < |a| && a[i] == t.alignment;
    var j :| 0 <= j < |b| && b[j] == t.bits;
    assert parts[i].typ.alignment == t.alignment;
    assert parts[j].typ.bits == t.bits;
  }

  /** The header part of union `id`: its state field, sized for its case count. */
  function Header(id: nat, unionCaseId: int, caseCount: Int32): Part {
    Part(UnionStateName(id), TypeInfo("", 0, GetMinimumBitsForInt(caseCount)), id, unionCaseId, [])
  }

  /**
   * `GenerateUnionPropertyParts` for an inline union property `p`, valid in
   * case `unionCaseId` of its enclosing union (-1 at the top), with
   * `nextId` the next free union id: the union takes `nextId`; its header
   * comes first, then every header hoisted out of its cases, then its body,
   * whose children are the case parts.
   */
  function UnionParts(table: map<string, TypeInfo>, p: SchemaProperty, unionCaseId: int, nextId: nat): Result<Gen, Error>
    decreases p, 3, 0
  {
    if p.cases.NullCases? then Failure(NullReference)
    else
      var cs := p.cases.items;
      var st :- CasesFrom(table, p, 0, nextId, unionCaseId, Collected([], [], nextId + 1));
      var unionType :- MaxType(st.collected);
      Success(Gen([Header(nextId, unionCaseId, |cs|)] + st.hoisted + [Part("", unionType, nextId, unionCaseId, st.collected)], st.next))
  }

  /** The loop over the cases of union `unionId`, from case `k` on, in state `st`. */
  function CasesFrom(table: map<string, TypeInfo>, p: SchemaProperty, k: nat, unionId: nat, unionCaseId: int, st: Collected)
    : Result<Collected, Error>
    requires p.cases.Cases? && k <= |p.cases.items|
    decreases p, 2, |p.cases.items| - k
  {
    if k == |p.cases.items| then Success(st)
    else
      var st' :- CaseStep(table, p, k, unionId, unionCaseId, st);
      CasesFrom(table, p, k + 1, unionId, unionCaseId, st')
  }

  /**
   * One turn of the loop over cases: case `ci`'s properties are collected
   * into a case part, and the headers they hoist are passed on.
   */
  function CaseStep(table: map<string, TypeInfo>, p: SchemaProperty, ci: nat, unionId: nat, unionCaseId: int, st: Collected)
    : Result<Collected, Error>
    requires p.cases.Cases? && ci < |p.cases.items|
    decreases p, 1, 0
  {
    var c := p.cases.items[ci];
    if c.properties.NullProperties? then Failure(NullReference)
    else
      var cst :- PropsFrom(table, p, ci, 0, Collected([], [], st.next));
      var caseType :- MaxType(cst.collected);
      Success(Collected(st.hoisted + cst.hoisted, st.collected + [Part("", caseType, unionId, unionCaseId, cst.collected)], cst.next))
  }

  /** The loop over the properties of case `ci`, from property `j` on, in state `st`. */
  function PropsFrom(table: map<string, TypeInfo>, p: SchemaProperty, ci: nat, j: nat, st: Collected): Result<Collected, Error>
    requires p.cases.Cases? && ci < |p.cases.items| && p.cases.items[ci].properties.Properties?
    requires j <= |p.cases.items[ci].properties.items|
    decreases p, 0, |p.cases.items[ci].properties.items| - j
  {
    var c := p.cases.items[ci];
    if j == |c.properties.items| then Success(st)
    else
      var q := c.properties.items[j];
      assert c in p.cases.items && q in c.properties.items;
      var st' :- PropertyStep(table, q, ci, st);
      PropsFrom(table, p, ci, j + 1, st')
  }

  /**
   * One turn of the loop over a case's properties: a leaf becomes a field
   * valid in case `ci`; a nested union contributes its last part (its
   * body) to the case and re-yields all its other parts outward, in
   * reverse order.
   */
  function PropertyStep(table: map<string, TypeInfo>, q: SchemaProperty, ci: nat, st: Collected): Result<Collected, Error>
    decreases q, 4, 0
  {
    if q.IsUnion() then
      var child :- UnionParts(table, q, ci, st.next);
      var reversed := Reverse(child.parts);
      if reversed == [] then Failure(EmptySequence)
      else Success(Collected(st.hoisted + reversed[1..], st.collected + [reversed[0]], child.next))
    else
      var t :- LookupType(table, q.typeName);
      Success(Collected(st.hoisted, st.collected + [Part(q.name, t, -1, ci, [])], st.next))
  }

  /** The loop over a record's properties, from property `k` on, in state `g`. */
  function TopFrom(table: map<string, TypeInfo>, props: seq<SchemaProperty>, k: nat, g: Gen): Result<Gen, Error>
    requires k <= |props|
    decreases |props| - k
  {
    if k == |props| then Success(g)
    else
      var g' :- TopStep(table, props[k], g);
      TopFrom(table, props, k + 1, g')
  }

  /** One turn of the loop over a record's properties. */
  function TopStep(table: map<string, TypeInfo>, q: SchemaProperty, g: Gen): Result<Gen, Error> {
    if q.IsUnion() then
      var u :- UnionParts(table, q, -1, g.next);
      Success(Gen(g.parts + u.parts, u.next))
    else
      var t :- LookupType(table, q.typeName);
      Success(Gen(g.parts + [Part(q.name, t, -1, -1, [])], g.next))
  }

  /**
   * `GenerateParts`: a union type yields nothing; a record yields its
   * properties' parts in order, with union ids counted from 0.
   */
  function TypeParts(table: map<string, TypeInfo>, t: SchemaType): (r: Result<seq<Part>, Error>)
    ensures t.IsUnion() ==> r == Success([])
  {
    if t.IsUnion() then Success([])
    else if t.properties.NullProperties? then Failure(NullReference)
    else
      var g :- TopFrom(table, t.properties.items, 0, Gen([], 0));
      Success(g.parts)
  }

  // Shape of the generated parts
  // ---------------------------------------------------------------------

  /**
   * A union's parts end with its body: an anonymous part of the union's
   * own id, valid where the union is, whose type is the widest of its
   * cases.
   */
  lemma UnionPartsEndWithBody(table: map<string, TypeInfo>, p: SchemaProperty, unionCaseId: int, nextId: nat)
    requires UnionParts(table, p, unionCaseId, nextId).Success?
    ensures var parts := UnionParts(table, p, unionCaseId, nextId).value.parts;
      && |parts| >= 2
      && parts[|parts| - 1].name == ""
      && parts[|parts| - 1].unionId == nextId
      && parts[|parts| - 1].unionCaseId == unionCaseId
      && MaxType(parts[|parts| - 1].children) == Success(parts[|parts| - 1].typ)
  {
  }

  /** Every part in `parts` is valid in case `ci`. */
  ghost predicate ValidIn(parts: seq<Part>, ci: int) {
    forall i :: 0 <= i < |parts| ==> parts[i].unionCaseId == ci
  }

  /** Adding a part valid in case `ci` keeps every part valid in it. */
  lemma ValidInExtend(parts: seq<Part>, parts': seq<Part>, ci: int)
    requires ValidIn(parts, ci)
    requires |parts'| == |parts| + 1 && parts'[..|parts|] == parts && parts'[|parts|].unionCaseId == ci
    ensures ValidIn(parts', ci)
  {
    forall i | 0 <= i < |parts|
      ensures parts'[i] == parts[i]
    {
      assert parts'[i] == parts'[..|parts|][i];
    }
  }

  /**
   * Each property of a case adds exactly one part to the case: a leaf its
   * field, typed by the table and valid in the case, and nothing else
   * changes; a nested union its last part (its body, which takes the next
   * free id and is valid in the case too), while all its other parts are
   * re-yielded outward in reverse order and its ids are used up.
   */
  lemma PropertyStepAddsOne(table: map<string, TypeInfo>, q: SchemaProperty, ci: nat, st: Collected)
    requires PropertyStep(table, q, ci, st).Success?
    ensures var r := PropertyStep(table, q, ci, st).value;
      && |r.collected| == |st.collected| + 1
      && r.collected[..|st.collected|] == st.collected
      && r.collected[|st.collected|].unionCaseId == ci
      && (!q.IsUnion() ==>
            && q.typeName in table
            && r.collected[|st.collected|] == Part(q.name, table[q.typeName], -1, ci, [])
            && r.hoisted == st.hoisted
            && r.next == st.next)
      && (q.IsUnion() ==>
            && r.collected[|st.collected|].unionId == st.next
            && UnionParts(table, q, ci, st.next).Success?
            && var u := UnionParts(table, q, ci, st.next).value;
               && |u.parts| >= 2
               && r.collected[|st.collected|] == u.parts[|u.parts| - 1]
               && r.hoisted == st.hoisted + Reverse(u.parts[..|u.parts| - 1])
               && r.next == u.next)
  {
    var r := PropertyStep(table, q, ci, st).value;
    if q.IsUnion() {
      UnionPartsEndWithBody(table, q, ci, st.next);
      ReverseDropLast(UnionParts(table, q, ci, st.next).value.parts);
    }
    assert r.collected[..|st.collected|] == st.collected;
  }

  /**
   * The part property `q` contributes to case `ci`: a leaf its field,
   * typed by the table and valid in the case; a nested union the last of
   * its parts, its body, generated with the id the body carries.
   */
  ghost predicate PropertyPart(table: map<string, TypeInfo>, q: SchemaProperty, ci: nat, c: Part) {
    if q.IsUnion() then
      && c.unionId >= 0
      && UnionParts(table, q, ci, c.unionId as nat).Success?
      && var u := UnionParts(table, q, ci, c.unionId as nat).value.parts;
         |u| >= 2 && c == u[|u| - 1]
    else
      && q.typeName in table
      && c == Part(q.name, table[q.typeName], -1, ci, [])
  }

  /** `parts` are the parts the first `|parts|` of `props` contribute to case `ci`, in order. */
  ghost predicate PropertyParts(table: map<string, TypeInfo>, props: seq<SchemaProperty>, ci: nat, parts: seq<Part>)
    decreases |parts|
  {
    && |parts| <= |props|
    && (parts != [] ==>
          && PropertyParts(table, props, ci, parts[..|parts| - 1])
          && PropertyPart(table, props[|parts| - 1], ci, parts[|parts| - 1]))
  }

  /** Each of `parts` is the part its property contributes. */
  lemma {:induction false} PropertyPartsAt(table: map<string, TypeInfo>, props: seq<SchemaProperty>, ci: nat, parts: seq<Part>, i: nat)
    requires PropertyParts(table, props, ci, parts) && i < |parts|
    ensures PropertyPart(table, props[i], ci, parts[i])
    decreases |parts|
  {
    if i < |parts| - 1 {
      var init := parts[..|parts| - 1];
      PropertyPartsAt(table, props, ci, init, i);
      assert init[i] == parts[i];
    }
  }

  /** What one property step adds is the part that property contributes. */
  lemma PropertyStepPart(table: map<string, TypeInfo>, q: SchemaProperty, ci: nat, st: Collected)
    requires PropertyStep(table, q, ci, st).Success?
    ensures var r := PropertyStep(table, q, ci, st).value;
      |r.collected| == |st.collected| + 1 && PropertyPart(table, q, ci, r.collected[|st.collected|])
  {
    PropertyStepAddsOne(table, q, ci, st);
  }

  /**
   * The loop over a case's properties adds, in property order, the part
   * each property contributes, all valid in the case.
   */
  lemma {:induction false} PropsFromCollects(table: map<string, TypeInfo>, p: SchemaProperty, ci: nat, j: nat, st: Collected)
    requires p.cases.Cases? && ci < |p.cases.items| && p.cases.items[ci].properties.Properties?
    requires j <= |p.cases.items[ci].properties.items|
    requires |st.collected| == j && ValidIn(st.collected, ci)
    requires PropertyParts(table, p.cases.items[ci].properties.items, ci, st.collected)
    requires PropsFrom(table, p, ci, j, st).Success?
    ensures var r := PropsFrom(table, p, ci, j, st).value;
      && |r.collected| == |p.cases.items[ci].properties.items|
      && ValidIn(r.collected, ci)
      && PropertyParts(table, p.cases.items[ci].properties.items, ci, r.collected)
    decreases |p.cases.items[ci].properties.items| - j
  {
    var props := p.cases.items[ci].properties.items;
    if j < |props| {
      var st' := PropertyStep(table, props[j], ci, st).value;
      assert PropsFrom(table, p, ci, j, st) == PropsFrom(table, p, ci, j + 1, st');
      PropertyStepAddsOne(table, props[j], ci, st);
      PropertyStepPart(table, props[j], ci, st);
      ValidInExtend(st.collected, st'.collected, ci);
      PropsFromCollects(table, p, ci, j + 1, st');
    } else {
      assert PropsFrom(table, p, ci, j, st) == Success(st);
    }
  }

  /**
   * A case part of union `unionId` (valid in `unionCaseId`) for case `ci`
   * with properties `props`: its children are the parts the properties
   * contribute, one each, in order, every one valid in case `ci`, and its
   * type is the widest of the children's.
   */
  ghost predicate IsCasePart(table: map<string, TypeInfo>, c: Part, unionId: nat, unionCaseId: int, ci: nat, props: seq<SchemaProperty>) {
    && c.name == ""
    && c.unionId == unionId
    && c.unionCaseId == unionCaseId
    && |c.children| == |props|
    && |props| > 0
    && ValidIn(c.children, ci)
    && PropertyParts(table, props, ci, c.children)
    && MaxType(c.children) == Success(c.typ)
  }

  /** Each case adds exactly one case part; its properties are present and there is at least one. */
  lemma CaseStepAddsCasePart(table: map<string, TypeInfo>, p: SchemaProperty, ci: nat, unionId: nat, unionCaseId: int, st: Collected)
    requires p.cases.Cases? && ci < |p.cases.items|
    requires CaseStep(table, p, ci, unionId, unionCaseId, st).Success?
    ensures var r := CaseStep(table, p, ci, unionId, unionCaseId, st).value;
      && p.cases.items[ci].properties.Properties?
      && |r.collected| == |st.collected| + 1
      && r.collected[..|st.collected|] == st.collected
      && IsCasePart(table, r.collected[|st.collected|], unionId, unionCaseId, ci, p.cases.items[ci].properties.items)
  {
    var r := CaseStep(table, p, ci, unionId, unionCaseId, st).value;
    PropsFromCollects(table, p, ci, 0, Collected([], [], st.next));
    assert r.collected[..|st.collected|] == st.collected;
  }

  /** `parts` are the case parts of the first `|parts|` cases of `p`, in case order. */
  ghost predicate CaseParts(table: map<string, TypeInfo>, parts: seq<Part>, p: SchemaProperty, unionId: nat, unionCaseId: int)
    requires p.cases.Cases?
    decreases |parts|
  {
    && |parts| <= |p.cases.items|
    && (parts != [] ==>
          var i := |parts| - 1;
          && CaseParts(table, parts[..i], p, unionId, unionCaseId)
          && p.cases.items[i].properties.Properties?
          && IsCasePart(table, parts[i], unionId, unionCaseId, i, p.cases.items[i].properties.items))
  }

  /** Each of `parts` is the case part of its case. */
  lemma {:induction false} CasePartsAt(table: map<string, TypeInfo>, parts: seq<Part>, p: SchemaProperty, unionId: nat, unionCaseId: int, i: nat)
    requires p.cases.Cases? && CaseParts(table, parts, p, unionId, unionCaseId) && i < |parts|
    ensures p.cases.items[i].properties.Properties?
    ensures IsCasePart(table, parts[i], unionId, unionCaseId, i, p.cases.items[i].properties.items)
    decreases |parts|
  {
    if i < |parts| - 1 {
      var init := parts[..|parts| - 1];
      CasePartsAt(table, init, p, unionId, unionCaseId, i);
      assert init[i] == parts[i];
    }
  }

  /** Adding the case part of the next case keeps the case parts in order. */
  lemma CasePartsExtend(table: map<string, TypeInfo>, parts: seq<Part>, parts': seq<Part>, p: SchemaProperty, unionId: nat, unionCaseId: int)
    requires p.cases.Cases? && CaseParts(table, parts, p, unionId, unionCaseId)
    requires |parts| < |p.cases.items| && |parts'| == |parts| + 1 && parts'[..|parts|] == parts
    requires p.cases.items[|parts|].properties.Properties?
    requires IsCasePart(table, parts'[|parts|], unionId, unionCaseId, |parts|, p.cases.items[|parts|].properties.items)
    ensures CaseParts(table, parts', p, unionId, unionCaseId)
  {
  }

  /** The loop over cases adds one case part per case, in case order. */
  lemma {:induction false} CasesFromCollects(table: map<string, TypeInfo>, p: SchemaProperty, k: nat, unionId: nat, unionCaseId: int, st: Collected)
    requires p.cases.Cases? && k <= |p.cases.items|
    requires |st.collected| == k && CaseParts(table, st.collected, p, unionId, unionCaseId)
    requires CasesFrom(table, p, k, unionId, unionCaseId, st).Success?
    ensures var r := CasesFrom(table, p, k, unionId, unionCaseId, st).value;
      |r.collected| == |p.cases.items| && CaseParts(table, r.collected, p, unionId, unionCaseId)
    decreases |p.cases.items| - k
  {
    if k < |p.cases.items| {
      var st' := CaseStep(table, p, k, unionId, unionCaseId, st).value;
      assert CasesFrom(table, p, k, unionId, unionCaseId, st) == CasesFrom(table, p, k + 1, unionId, unionCaseId, st');
      CaseStepAddsCasePart(table, p, k, unionId, unionCaseId, st);
      CasePartsExtend(table, st.collected, st'.collected, p, unionId, unionCaseId);
      CasesFromCollects(table, p, k + 1, unionId, unionCaseId, st');
    } else {
      assert CasesFrom(table, p, k, unionId, unionCaseId, st) == Success(st);
    }
  }

  /**
   * A union property that generates successfully has at least one case,
   * every case has at least one property, and its parts run from its
   * header, sized for its case count, to its body, which holds one case
   * part per case, in order, each valid in the union's case and holding
   * parts valid in its own.
   */
  lemma UnionPartsShape(table: map<string, TypeInfo>, p: SchemaProperty, unionCaseId: int, nextId: nat)
    requires UnionParts(table, p, unionCaseId, nextId).Success?
    ensures p.IsUnion() && |p.cases.items| > 0
    ensures var parts := UnionParts(table, p, unionCaseId, nextId).value.parts;
      && |parts| >= 2
      && parts[0] == Header(nextId, unionCaseId, |p.cases.items|)
      && parts[|parts| - 1].unionId == nextId
      && parts[|parts| - 1].unionCaseId == unionCaseId
      && MaxType(parts[|parts| - 1].children) == Success(parts[|parts| - 1].typ)
      && |parts[|parts| - 1].children| == |p.cases.items|
      && forall i :: 0 <= i < |p.cases.items| ==>
           && p.cases.items[i].properties.Properties?
           && IsCasePart(table, parts[|parts| - 1].children[i], nextId, unionCaseId, i, p.cases.items[i].properties.items)
  {
    var start := Collected([], [], nextId + 1);
    CasesFromCollects(table, p, 0, nextId, unionCaseId, start);
    UnionPartsEndWithBody(table, p, unionCaseId, nextId);
    var cases := CasesFrom(table, p, 0, nextId, unionCaseId, start).value.collected;
    forall i | 0 <= i < |p.cases.items|
      ensures p.cases.items[i].properties.Properties?
      ensures IsCasePart(table, cases[i], nextId, unionCaseId, i, p.cases.items[i].properties.items)
    {
      CasePartsAt(table, cases, p, nextId, unionCaseId, i);
    }
  }



  // Records
  // ---------------------------------------------------------------------

  /** The first `|parts|` properties are leaves of known types, and `parts` their fields. */
  ghost predicate LeafFields(table: map<string, TypeInfo>, props: seq<SchemaProperty>, parts: seq<Part>) {
    && |parts| <= |props|
    && forall i :: 0 <= i < |parts| ==>
         && !props[i].IsUnion()
         && props[i].typeName in table
         && parts[i] == Part(props[i].name, table[props[i].typeName], -1, -1, [])
  }

  /** Over leaves of known types, the loop over a record's properties adds their fields in order. */
  lemma {:induction false} TopFromLeaves(table: map<string, TypeInfo>, props: seq<SchemaProperty>, k: nat, g: Gen)
    requires k <= |props| && |g.parts| == k && LeafFields(table, props, g.parts)
    requires forall i :: k <= i < |props| ==> !props[i].IsUnion() && props[i].typeName in table
    ensures TopFrom(table, props, k, g).Success?
    ensures var r := TopFrom(table, props, k, g).value;
      |r.parts| == |props| && LeafFields(table, props, r.parts)
    decreases |props| - k
  {
    if k < |props| {
      var g' := Gen(g.parts + [Part(props[k].name, table[props[k].typeName], -1, -1, [])], g.next);
      assert TopStep(table, props[k], g) == Success(g');
      forall i | 0 <= i < k
        ensures g'.parts[i] == g.parts[i]
      {
      }
      TopFromLeaves(table, props, k + 1, g');
    }
  }

  /**
   * A record whose properties are all leaves of known types yields one
   * field per property, in order, each named and typed as its property and
   * belonging to no union or case.
   */
  lemma RecordOfLeaves(table: map<string, TypeInfo>, t: SchemaType)
    requires !t.IsUnion() && t.properties.Properties?
    requires forall i :: 0 <= i < |t.properties.items| ==>
      !t.properties.items[i].IsUnion() && t.properties.items[i].typeName in table
    ensures TypeParts(table, t).Success?
    ensures var parts, props := TypeParts(table, t).value, t.properties.items;
      && |parts| == |props|
      && forall i :: 0 <= i < |props| ==> parts[i] == Part(props[i].name, table[props[i].typeName], -1, -1, [])
  {
    TopFromLeaves(table, t.properties.items, 0, Gen([], 0));
  }

  /** A leaf of an unknown type at or after `k` makes the loop over a record's properties throw. */
  lemma {:induction false} TopFromUnknownLeaf(table: map<string, TypeInfo>, props: seq<SchemaProperty>, k: nat, g: Gen, i: nat)
    requires k <= i < |props| && !props[i].IsUnion() && props[i].typeName !in table
    ensures TopFrom(table, props, k, g).Failure?
    decreases i - k
  {
    if k < i {
      var step := TopStep(table, props[k], g);
      if step.Success? {
        assert TopFrom(table, props, k, g) == TopFrom(table, props, k + 1, step.value);
        TopFromUnknownLeaf(table, props, k + 1, step.value, i);
      }
    }
  }

  /** A record with a leaf property of an unknown type yields no parts but an error. */
  lemma UnknownLeafFails(table: map<string, TypeInfo>, t: SchemaType, i: nat)
    requires !t.IsUnion() && t.properties.Properties? && i < |t.properties.items|
    requires !t.properties.items[i].IsUnion() && t.properties.items[i].typeName !in table
    ensures TypeParts(table, t).Failure?
  {
    TopFromUnknownLeaf(table, t.properties.items, 0, Gen([], 0), i);
  }

  // Union ids and headers
  // ---------------------------------------------------------------------

  /** Every part in `parts` belongs to a union numbered from `lo` up to, not including, `hi`. */
  ghost predicate IdsIn(parts: seq<Part>, lo: int, hi: int) {
    forall i :: 0 <= i < |parts| ==> lo <= parts[i].unionId < hi
  }

  lemma IdsInAppend(a: seq<Part>, b: seq<Part>, lo: int, mid: int, hi: int)
    requires IdsIn(a, lo, mid) && IdsIn(b, lo, hi) && mid <= hi
    ensures IdsIn(a + b, lo, hi)
  {
    forall i | 0 <= i < |a + b|
      ensures lo <= (a + b)[i].unionId < hi
    {
      if i >= |a| {
        assert (a + b)[i] == b[i - |a|];
      }
    }
  }

  /**
   * The state field of a union: named after the union's id, of an
   * anonymous type with alignment 0, with no children. No body (which is
   * anonymous) and no field (which has union id -1) is a header.
   */
  ghost predicate IsHeader(p: Part) {
    && p.unionId >= 0
    && p.name == UnionStateName(p.unionId)
    && p.typ.name == ""
    && p.typ.alignment == 0
    && p.children == []
  }

  /** The ids of the headers among `parts`, as often as they occur. */
  ghost function HeaderIds(parts: seq<Part>): multiset<int> {
    if parts == [] then multiset{}
    else
      var last := parts[|parts| - 1];
      HeaderIds(parts[..|parts| - 1]) + if IsHeader(last) then multiset{last.unionId} else multiset{}
  }

  /** The ids from `lo` up to, not including, `hi`, once each. */
  ghost function IdRange(lo: int, hi: int): multiset<int>
    decreases hi - lo
  {
    if hi <= lo then multiset{} else IdRange(lo, hi - 1) + multiset{hi - 1}
  }

  /**
   * The headers a union re-yields outward: all of them headers, one for
   * each id from `lo` up to, not including, `hi`, and no other.
   */
  ghost predicate Hoisted(hs: seq<Part>, lo: int, hi: int) {
    && lo <= hi
    && (forall i :: 0 <= i < |hs| ==> IsHeader(hs[i]))
    && HeaderIds(hs) == IdRange(lo, hi)
  }

  lemma {:induction false} HeaderIdsAppend(a: seq<Part>, b: seq<Part>)
    ensures HeaderIds(a + b) == HeaderIds(a) + HeaderIds(b)
    decreases |b|
  {
    if b == [] {
      assert a + b == a;
    } else {
      var b' := b[..|b| - 1];
      assert (a + b)[..|a + b| - 1] == a + b';
      HeaderIdsAppend(a, b');
    }
  }

  lemma {:induction false} HeaderIdsReverse(s: seq<Part>)
    ensures HeaderIds(Reverse(s)) == HeaderIds(s)
    decreases |s|
  {
    if s != [] {
      HeaderIdsReverse(s[1..]);
      HeaderIdsAppend(Reverse(s[1..]), [s[0]]);
      HeaderIdsAppend([s[0]], s[1..]);
      assert [s[0]] + s[1..] == s;
    }
  }

  lemma {:induction false} HeaderIdsHas(hs: seq<Part>, i: nat)
    requires i < |hs| && IsHeader(hs[i])
    ensures hs[i].unionId in HeaderIds(hs)
    decreases |hs|
  {
    if i < |hs| - 1 {
      HeaderIdsHas(hs[..|hs| - 1], i);
    }
  }

  lemma {:induction false} HeaderIdsTwice(hs: seq<Part>, i: nat, j: nat)
    requires i < j < |hs| && IsHeader(hs[i]) && IsHeader(hs[j]) && hs[i].unionId == hs[j].unionId
    ensures HeaderIds(hs)[hs[i].unionId] >= 2
    decreases |hs|
  {
    var init := hs[..|hs| - 1];
    if j < |hs| - 1 {
      HeaderIdsTwice(init, i, j);
    } else {
      HeaderIdsHas(init, i);
    }
  }

  lemma {:induction false} IdRangeSplit(lo: int, mid: int, hi: int)
    requires lo <= mid <= hi
    ensures IdRange(lo, mid) + IdRange(mid, hi) == IdRange(lo, hi)
    decreases hi - mid
  {
    if mid < hi {
      IdRangeSplit(lo, mid, hi - 1);
      calc {
        IdRange(lo, mid) + IdRange(mid, hi);
        IdRange(lo, mid) + (IdRange(mid, hi - 1) + multiset{hi - 1});
        (IdRange(lo, mid) + IdRange(mid, hi - 1)) + multiset{hi - 1};
        IdRange(lo, hi - 1) + multiset{hi - 1};
      }
    }
  }

  /** Every id of the range occurs once, and nothing else occurs. */
  lemma {:induction false} IdRangeCount(lo: int, hi: int, x: int)
    ensures IdRange(lo, hi)[x] == if lo <= x < hi then 1 else 0
    decreases hi - lo
  {
    if lo < hi {
      IdRangeCount(lo, hi - 1, x);
    }
  }

  /** Headers counted by a range of ids lie in that range and belong to different unions. */
  lemma HeaderIdsInRange(hs: seq<Part>, lo: int, hi: int)
    requires HeaderIds(hs) == IdRange(lo, hi)
    ensures forall i :: 0 <= i < |hs| && IsHeader(hs[i]) ==> lo <= hs[i].unionId < hi
    ensures forall i, j :: 0 <= i < j < |hs| && IsHeader(hs[i]) && IsHeader(hs[j]) ==> hs[i].unionId != hs[j].unionId
  {
    forall i | 0 <= i < |hs| && IsHeader(hs[i])
      ensures lo <= hs[i].unionId < hi
    {
      HeaderIdsHas(hs, i);
      IdRangeCount(lo, hi, hs[i].unionId);
    }
    forall i, j | 0 <= i < j < |hs| && IsHeader(hs[i]) && IsHeader(hs[j])
      ensures hs[i].unionId != hs[j].unionId
    {
      IdRangeCount(lo, hi, hs[i].unionId);
      if hs[i].unionId == hs[j].unionId {
        HeaderIdsTwice(hs, i, j);
        assert false;
      }
    }
  }

  lemma HoistedAppend(a: seq<Part>, b: seq<Part>, lo: int, mid: int, hi: int)
    requires Hoisted(a, lo, mid) && Hoisted(b, mid, hi)
    ensures Hoisted(a + b, lo, hi)
  {
    HeaderIdsAppend(a, b);
    IdRangeSplit(lo, mid, hi);
    forall i | 0 <= i < |a + b|
      ensures IsHeader((a + b)[i])
    {
      if i >= |a| {
        assert (a + b)[i] == b[i - |a|];
      }
    }
  }

  lemma HoistedReverse(hs: seq<Part>, lo: int, hi: int)
    requires Hoisted(hs, lo, hi)
    ensures Hoisted(Reverse(hs), lo, hi)
  {
    var r := Reverse(hs);
    HeaderIdsReverse(hs);
    forall i | 0 <= i < |r|
      ensures IsHeader(r[i])
    {
      assert r[i] == hs[|hs| - 1 - i];
    }
  }

  /** What a nested union re-yields, all its parts but its body reversed, is still hoisted headers. */
  lemma HoistedReversedTail(parts: seq<Part>, lo: int, hi: int)
    requires |parts| > 0 && Hoisted(parts[..|parts| - 1], lo, hi)
    ensures Hoisted(Reverse(parts)[1..], lo, hi)
  {
    HoistedReverse(parts[..|parts| - 1], lo, hi);
    ReverseDropLast(parts);
  }

  /**
   * The parts of union `nextId`, which uses the ids up to `next`: all of
   * them in that range; the first one of the union itself; those between
   * the first and the last of nested unions; all but the last headers,
   * one for each id used.
   */
  ghost predicate UnionIds(parts: seq<Part>, nextId: int, next: int) {
    && nextId < next
    && IdsIn(parts, nextId, next)
    && |parts| >= 2
    && parts[0].unionId == nextId
    && IdsIn(parts[1..|parts| - 1], nextId + 1, next)
    && Hoisted(parts[..|parts| - 1], nextId, next)
  }

  /**
   * A union numbered `nextId` uses the ids from `nextId` up to the next
   * free one: its header comes first and takes `nextId`; everything
   * between header and body is the header of a nested union numbered
   * above `nextId`; and all its parts but the body are headers, exactly
   * one for each id it used. Ids are handed out in increasing order and
   * never reused.
   */
  lemma {:induction false} UnionPartsIds(table: map<string, TypeInfo>, p: SchemaProperty, unionCaseId: int, nextId: nat)
    requires UnionParts(table, p, unionCaseId, nextId).Success?
    ensures var g := UnionParts(table, p, unionCaseId, nextId).value;
      UnionIds(g.parts, nextId, g.next)
    decreases p, 3, 0
  {
    var start := Collected([], [], nextId + 1);
    CasesFromIds(table, p, 0, nextId, unionCaseId, start, nextId + 1);
    var st := CasesFrom(table, p, 0, nextId, unionCaseId, start).value;
    var unionType := MaxType(st.collected).value;
    UnionAssemblyIds(nextId, unionCaseId, |p.cases.items|, st.hoisted, unionType, st.collected, st.next);
  }

  /** Header, hoisted headers and body put together, as `UnionParts` does. */
  lemma UnionAssemblyIds(nextId: nat, unionCaseId: int, caseCount: Int32, hoisted: seq<Part>, unionType: TypeInfo, collected: seq<Part>, next: int)
    requires Hoisted(hoisted, nextId + 1, next)
    ensures UnionIds([Header(nextId, unionCaseId, caseCount)] + hoisted + [Part("", unionType, nextId, unionCaseId, collected)], nextId, next)
  {
    var header := Header(nextId, unionCaseId, caseCount);
    var body := Part("", unionType, nextId, unionCaseId, collected);
    var parts := [header] + hoisted + [body];
    assert HeaderIds([header]) == IdRange(nextId, nextId + 1) by {
      assert [header][..0] == [];
    }
    HoistedAppend([header], hoisted, nextId, nextId + 1, next);
    HoistedIdsIn(hoisted, nextId + 1, next);
    HoistedIdsIn([header] + hoisted, nextId, next);
    IdsInAppend([header] + hoisted, [body], nextId, next, next);
    assert parts[..|parts| - 1] == [header] + hoisted;
    assert parts[1..|parts| - 1] == hoisted;
  }

  lemma HoistedIdsIn(hs: seq<Part>, lo: int, hi: int)
    requires Hoisted(hs, lo, hi)
    ensures IdsIn(hs, lo, hi)
  {
    HeaderIdsInRange(hs, lo, hi);
  }

  /** One turn of the loop over cases, then the rest of the loop. */
  lemma CasesFromUnfold(table: map<string, TypeInfo>, p: SchemaProperty, k: nat, unionId: nat, unionCaseId: int, st: Collected)
    requires p.cases.Cases? && k < |p.cases.items|
    requires CasesFrom(table, p, k, unionId, unionCaseId, st).Success?
    ensures CaseStep(table, p, k, unionId, unionCaseId, st).Success?
    ensures CasesFrom(table, p, k, unionId, unionCaseId, st)
         == CasesFrom(table, p, k + 1, unionId, unionCaseId, CaseStep(table, p, k, unionId, unionCaseId, st).value)
  {
  }

  lemma {:induction false} CasesFromIds(table: map<string, TypeInfo>, p: SchemaProperty, k: nat, unionId: nat, unionCaseId: int, st: Collected, lo: int)
    requires p.cases.Cases? && k <= |p.cases.items|
    requires Hoisted(st.hoisted, lo, st.next)
    requires CasesFrom(table, p, k, unionId, unionCaseId, st).Success?
    ensures var r := CasesFrom(table, p, k, unionId, unionCaseId, st).value;
      st.next <= r.next && Hoisted(r.hoisted, lo, r.next)
    decreases p, 2, |p.cases.items| - k
  {
    if k < |p.cases.items| {
      CasesFromUnfold(table, p, k, unionId, unionCaseId, st);
      var st' := CaseStep(table, p, k, unionId, unionCaseId, st).value;
      CaseStepIds(table, p, k, unionId, unionCaseId, st, lo);
      CasesFromIds(table, p, k + 1, unionId, unionCaseId, st', lo);
      var r := CasesFrom(table, p, k + 1, unionId, unionCaseId, st').value;
      assert st.next <= r.next && Hoisted(r.hoisted, lo, r.next);
    } else {
      assert CasesFrom(table, p, k, unionId, unionCaseId, st) == Success(st);
    }
  }

  lemma {:induction false} CaseStepIds(table: map<string, TypeInfo>, p: SchemaProperty, ci: nat, unionId: nat, unionCaseId: int, st: Collected, lo: int)
    requires p.cases.Cases? && ci < |p.cases.items|
    requires Hoisted(st.hoisted, lo, st.next)
    requires CaseStep(table, p, ci, unionId, unionCaseId, st).Success?
    ensures var r := CaseStep(table, p, ci, unionId, unionCaseId, st).value;
      st.next <= r.next && Hoisted(r.hoisted, lo, r.next)
    decreases p, 1, 0
  {
    var start := Collected([], [], st.next);
    PropsFromIds(table, p, ci, 0, start, st.next);
    var cst := PropsFrom(table, p, ci, 0, start).value;
    HoistedAppend(st.hoisted, cst.hoisted, lo, st.next, cst.next);
  }

  lemma {:induction false} PropsFromIds(table: map<string, TypeInfo>, p: SchemaProperty, ci: nat, j: nat, st: Collected, lo: int)
    requires p.cases.Cases? && ci < |p.cases.items| && p.cases.items[ci].properties.Properties?
    requires j <= |p.cases.items[ci].properties.items|
    requires Hoisted(st.hoisted, lo, st.next)
    requires PropsFrom(table, p, ci, j, st).Success?
    ensures var r := PropsFrom(table, p, ci, j, st).value;
      st.next <= r.next && Hoisted(r.hoisted, lo, r.next)
    decreases p, 0, |p.cases.items[ci].properties.items| - j
  {
    var c := p.cases.items[ci];
    if j < |c.properties.items| {
      var q := c.properties.items[j];
      assert c in p.cases.items && q in c.properties.items;
      var st' := PropertyStep(table, q, ci, st).value;
      assert PropsFrom(table, p, ci, j, st) == PropsFrom(table, p, ci, j + 1, st');
      PropertyStepIds(table, q, ci, st, lo);
      PropsFromIds(table, p, ci, j + 1, st', lo);
      var r := PropsFrom(table, p, ci, j + 1, st').value;
      assert st.next <= r.next && Hoisted(r.hoisted, lo, r.next);
    } else {
      assert PropsFrom(table, p, ci, j, st) == Success(st);
    }
  }

  lemma {:induction false} PropertyStepIds(table: map<string, TypeInfo>, q: SchemaProperty, ci: nat, st: Collected, lo: int)
    requires Hoisted(st.hoisted, lo, st.next)
    requires PropertyStep(table, q, ci, st).Success?
    ensures var r := PropertyStep(table, q, ci, st).value;
      st.next <= r.next && Hoisted(r.hoisted, lo, r.next)
    decreases q, 4, 0
  {
    if q.IsUnion() {
      UnionPartsIds(table, q, ci, st.next);
      var child := UnionParts(table, q, ci, st.next).value;
      HoistedReversedTail(child.parts, st.next, child.next);
      HoistedAppend(st.hoisted, Reverse(child.parts)[1..], lo, st.next, child.next);
    }
  }

  /** Every part in `parts` is a plain field (-1) or belongs to a union numbered below `hi`. */
  ghost predicate FieldOrIdBelow(parts: seq<Part>, hi: int) {
    forall i :: 0 <= i < |parts| ==> parts[i].unionId == -1 || 0 <= parts[i].unionId < hi
  }

  lemma FieldOrIdBelowAppend(a: seq<Part>, b: seq<Part>, mid: int, hi: int)
    requires FieldOrIdBelow(a, mid) && mid <= hi
    requires forall i :: 0 <= i < |b| ==> b[i].unionId == -1 || mid <= b[i].unionId < hi
    requires mid >= 0
    ensures FieldOrIdBelow(a + b, hi)
  {
    forall i | 0 <= i < |a + b|
      ensures (a + b)[i].unionId == -1 || 0 <= (a + b)[i].unionId < hi
    {
      if i < |a| {
        assert (a + b)[i] == a[i];
      } else {
        assert (a + b)[i] == b[i - |a|];
      }
    }
  }

  lemma {:induction false} TopFromIds(table: map<string, TypeInfo>, props: seq<SchemaProperty>, k: nat, g: Gen)
    requires k <= |props| && FieldOrIdBelow(g.parts, g.next)
    requires TopFrom(table, props, k, g).Success?
    ensures var r := TopFrom(table, props, k, g).value;
      g.next <= r.next && FieldOrIdBelow(r.parts, r.next)
    decreases |props| - k
  {
    if k < |props| {
      var g' := TopStep(table, props[k], g).value;
      assert TopFrom(table, props, k, g) == TopFrom(table, props, k + 1, g');
      if props[k].IsUnion() {
        UnionPartsIds(table, props[k], -1, g.next);
        var u := UnionParts(table, props[k], -1, g.next).value;
        FieldOrIdBelowAppend(g.parts, u.parts, g.next, u.next);
      } else {
        var t := LookupType(table, props[k].typeName).value;
        FieldOrIdBelowAppend(g.parts, [Part(props[k].name, t, -1, -1, [])], g.next, g.next);
      }
      TopFromIds(table, props, k + 1, g');
    } else {
      assert TopFrom(table, props, k, g) == Success(g);
    }
  }

  /**
   * Union ids start from 0 for every type: each part of a record is a
   * plain field or belongs to a union numbered from 0 up to the number of
   * unions the record holds, its own and nested ones.
   */
  lemma RecordIds(table: map<string, TypeInfo>, t: SchemaType)
    requires !t.IsUnion() && t.properties.Properties?
    requires TypeParts(table, t).Success?
    ensures var g := TopFrom(table, t.properties.items, 0, Gen([], 0)).value;
      TypeParts(table, t).value == g.parts && FieldOrIdBelow(g.parts, g.next)
  {
    TopFromIds(table, t.properties.items, 0, Gen([], 0));
  }

  /** A union's parts hold one header for each id it uses, its body being none. */
  lemma UnionPartsHeaderIds(table: map<string, TypeInfo>, p: SchemaProperty, unionCaseId: int, nextId: nat)
    requires UnionParts(table, p, unionCaseId, nextId).Success?
    ensures var g := UnionParts(table, p, unionCaseId, nextId).value;
      nextId < g.next && HeaderIds(g.parts) == IdRange(nextId, g.next)
  {
    UnionPartsIds(table, p, unionCaseId, nextId);
    UnionPartsEndWithBody(table, p, unionCaseId, nextId);
    var parts := UnionParts(table, p, unionCaseId, nextId).value.parts;
    assert !IsHeader(parts[|parts| - 1]);
  }

  /** The loop over a record's properties yields one header per union id it hands out. */
  lemma {:induction false} TopFromHeaders(table: map<string, TypeInfo>, props: seq<SchemaProperty>, k: nat, g: Gen)
    requires k <= |props| && HeaderIds(g.parts) == IdRange(0, g.next)
    requires TopFrom(table, props, k, g).Success?
    ensures var r := TopFrom(table, props, k, g).value;
      HeaderIds(r.parts) == IdRange(0, r.next)
    decreases |props| - k
  {
    if k < |props| {
      var g' := TopStep(table, props[k], g).value;
      assert TopFrom(table, props, k, g) == TopFrom(table, props, k + 1, g');
      if props[k].IsUnion() {
        UnionPartsHeaderIds(table, props[k], -1, g.next);
        var u := UnionParts(table, props[k], -1, g.next).value;
        HeaderIdsAppend(g.parts, u.parts);
        IdRangeSplit(0, g.next, u.next);
      } else {
        var leaf := Part(props[k].name, LookupType(table, props[k].typeName).value, -1, -1, []);
        assert (g.parts + [leaf])[..|g.parts|] == g.parts;
      }
      TopFromHeaders(table, props, k + 1, g');
    } else {
      assert TopFrom(table, props, k, g) == Success(g);
    }
  }

  /**
   * Every union of a record, its own and nested ones, yields exactly one
   * header: the headers' ids are exactly 0 up to the number of unions,
   * each once, so no two headers share a union id and no state field
   * name repeats.
   */
  lemma RecordHeaders(table: map<string, TypeInfo>, t: SchemaType)
    requires !t.IsUnion() && t.properties.Properties?
    requires TypeParts(table, t).Success?
    ensures var g := TopFrom(table, t.properties.items, 0, Gen([], 0)).value;
      var parts := g.parts;
      && TypeParts(table, t).value == parts
      && HeaderIds(parts) == IdRange(0, g.next)
      && (forall id :: 0 <= id < g.next ==> HeaderIds(parts)[id] == 1)
      && (forall i, j :: 0 <= i < j < |parts| && IsHeader(parts[i]) && IsHeader(parts[j]) ==>
            parts[i].unionId != parts[j].unionId && parts[i].name != parts[j].name)
  {
    TopFromHeaders(table, t.properties.items, 0, Gen([], 0));
    var g := TopFrom(table, t.properties.items, 0, Gen([], 0)).value;
    HeaderIdsInRange(g.parts, 0, g.next);
    forall id | 0 <= id < g.next
      ensures HeaderIds(g.parts)[id] == 1
    {
      IdRangeCount(0, g.next, id);
    }
    forall i, j | 0 <= i < j < |g.parts| && IsHeader(g.parts[i]) && IsHeader(g.parts[j])
      ensures g.parts[i].name != g.parts[j].name
    {
      if g.parts[i].name == g.parts[j].name {
        UnionStateNameInjective(g.parts[i].unionId, g.parts[j].unionId);
        assert false;
      }
    }
  }

  // Fields
  // ---------------------------------------------------------------------

  /** The plain fields among `parts`, those of no union, in order. */
  function Fields(parts: seq<Part>): seq<Part> {
    if parts == [] then []
    else
      var last := parts[|parts| - 1];
      Fields(parts[..|parts| - 1]) + if last.unionId == -1 then [last] else []
  }

  /** The leaf properties among `props`, in order. */
  function LeafProperties(props: seq<SchemaProperty>): seq<SchemaProperty> {
    if props == [] then []
    else
      var last := props[|props| - 1];
      LeafProperties(props[..|props| - 1]) + if last.IsUnion() then [] else [last]
  }

  /** `fields` are the fields of the leaf properties `leaves`: one each, in order, typed by the table. */
  ghost predicate FieldsFor(table: map<string, TypeInfo>, leaves: seq<SchemaProperty>, fields: seq<Part>) {
    && |fields| == |leaves|
    && forall i :: 0 <= i < |leaves| ==>
         && leaves[i].typeName in table
         && fields[i] == Part(leaves[i].name, table[leaves[i].typeName], -1, -1, [])
  }

  lemma {:induction false} FieldsAppend(a: seq<Part>, b: seq<Part>)
    ensures Fields(a + b) == Fields(a) + Fields(b)
    decreases |b|
  {
    if b == [] {
      assert a + b == a;
    } else {
      var b' := b[..|b| - 1];
      assert (a + b)[..|a + b| - 1] == a + b';
      FieldsAppend(a, b');
    }
  }

  /** Parts that all belong to unions hold no plain field. */
  lemma {:induction false} NoFieldsInUnion(parts: seq<Part>, lo: nat, hi: int)
    requires IdsIn(parts, lo, hi)
    ensures Fields(parts) == []
    decreases |parts|
  {
    if parts != [] {
      NoFieldsInUnion(parts[..|parts| - 1], lo, hi);
    }
  }

  lemma FieldsForExtend(table: map<string, TypeInfo>, leaves: seq<SchemaProperty>, fields: seq<Part>, q: SchemaProperty)
    requires FieldsFor(table, leaves, fields) && q.typeName in table
    ensures FieldsFor(table, leaves + [q], fields + [Part(q.name, table[q.typeName], -1, -1, [])])
  {
  }

  /** A union contributes no plain field, however deeply nested its cases are. */
  lemma UnionPartsNoFields(table: map<string, TypeInfo>, p: SchemaProperty, unionCaseId: int, nextId: nat)
    requires UnionParts(table, p, unionCaseId, nextId).Success?
    ensures Fields(UnionParts(table, p, unionCaseId, nextId).value.parts) == []
  {
    UnionPartsIds(table, p, unionCaseId, nextId);
    var u := UnionParts(table, p, unionCaseId, nextId).value;
    NoFieldsInUnion(u.parts, nextId, u.next);
  }

  lemma {:induction false} TopFromFields(table: map<string, TypeInfo>, props: seq<SchemaProperty>, k: nat, g: Gen)
    requires k <= |props| && FieldsFor(table, LeafProperties(props[..k]), Fields(g.parts))
    requires TopFrom(table, props, k, g).Success?
    ensures FieldsFor(table, LeafProperties(props), Fields(TopFrom(table, props, k, g).value.parts))
    decreases |props| - k
  {
    if k < |props| {
      var g' := TopStep(table, props[k], g).value;
      assert TopFrom(table, props, k, g) == TopFrom(table, props, k + 1, g');
      TopStepFields(table, props, k, g);
      TopFromFields(table, props, k + 1, g');
    } else {
      assert props[..k] == props;
      assert TopFrom(table, props, k, g) == Success(g);
    }
  }

  /** One property adds its field when it is a leaf, and no field when it is a union. */
  lemma TopStepFields(table: map<string, TypeInfo>, props: seq<SchemaProperty>, k: nat, g: Gen)
    requires k < |props| && FieldsFor(table, LeafProperties(props[..k]), Fields(g.parts))
    requires TopStep(table, props[k], g).Success?
    ensures FieldsFor(table, LeafProperties(props[..k + 1]), Fields(TopStep(table, props[k], g).value.parts))
  {
    var g' := TopStep(table, props[k], g).value;
    assert props[..k + 1][..k] == props[..k];
    var leaves := LeafProperties(props[..k]);
    if props[k].IsUnion() {
      UnionPartsNoFields(table, props[k], -1, g.next);
      var u := UnionParts(table, props[k], -1, g.next).value;
      FieldsAppend(g.parts, u.parts);
      assert Fields(g'.parts) == Fields(g.parts);
      assert LeafProperties(props[..k + 1]) == leaves;
    } else {
      var leaf := Part(props[k].name, table[props[k].typeName], -1, -1, []);
      assert (g.parts + [leaf])[..|g.parts|] == g.parts;
      assert Fields(g'.parts) == Fields(g.parts) + [leaf];
      assert LeafProperties(props[..k + 1]) == leaves + [props[k]];
      FieldsForExtend(table, leaves, Fields(g.parts), props[k]);
    }
  }

  /**
   * The plain fields of a record, its parts of no union, are exactly the
   * fields of its leaf properties, one each, in property order, each named
   * and typed as its property; nested and top-level unions contribute
   * none.
   */
  lemma RecordFields(table: map<string, TypeInfo>, t: SchemaType)
    requires !t.IsUnion() && t.properties.Properties?
    requires TypeParts(table, t).Success?
    ensures FieldsFor(table, LeafProperties(t.properties.items), Fields(TypeParts(table, t).value))
  {
    assert t.properties.items[..0] == [];
    TopFromFields(table, t.properties.items, 0, Gen([], 0));
  }

  /**
   * `GenerateUnionPropertyParts`: the union takes the next id, yields its
   * header, walks its cases collecting their parts and re-yielding the
   * headers of nested unions, then yields its body.
   */
  method GenerateUnionPropertyParts(table: map<string, TypeInfo>, unionProperty: SchemaProperty, unionCaseId: int, nextUnionId: nat)
    returns (r: Result<Gen, Error>)
    ensures r == UnionParts(table, unionProperty, unionCaseId, nextUnionId)
    decreases unionProperty, 3
  {
    if unionProperty.cases.NullCases? {
      return Failure(NullReference);
    }
    var unionId := nextUnionId;
    var header := Header(unionId, unionCaseId, |unionProperty.cases.items|);
    var cases := GenerateCases(table, unionProperty, unionId, unionCaseId);
    if cases.Failure? {
      return Failure(cases.error);
    }
    var unionType := MaxType(cases.value.collected);
    if unionType.Failure? {
      return Failure(unionType.error);
    }
    r := Success(Gen([header] + cases.value.hoisted + [Part("", unionType.value, unionId, unionCaseId, cases.value.collected)], cases.value.next));
  }

  /**
   * The loop over cases in `GenerateUnionPropertyParts` for union
   * `unionId`: one case part per case, and the headers hoisted out of them.
   */
  method GenerateCases(table: map<string, TypeInfo>, unionProperty: SchemaProperty, unionId: nat, unionCaseId: int)
    returns (r: Result<Collected, Error>)
    requires unionProperty.cases.Cases?
    ensures r == CasesFrom(table, unionProperty, 0, unionId, unionCaseId, Collected([], [], unionId + 1))
    decreases unionProperty, 2
  {
    var cs := unionProperty.cases.items;
    ghost var start := Collected([], [], unionId + 1);
    var hoisted: seq<Part> := [];
    var cases: seq<Part> := [];
    var next: nat := unionId + 1;
    var caseId := 0;
    while caseId < |cs|
      invariant caseId <= |cs|
      invariant CasesFrom(table, unionProperty, caseId, unionId, unionCaseId, Collected(hoisted, cases, next))
             == CasesFrom(table, unionProperty, 0, unionId, unionCaseId, start)
      decreases |cs| - caseId
    {
      var current := Collected(hoisted, cases, next);
      var st := GenerateCase(table, unionProperty, caseId, unionId, unionCaseId, current);
      if st.Failure? {
        assert CasesFrom(table, unionProperty, caseId, unionId, unionCaseId, current) == Failure(st.error);
        return Failure(st.error);
      }
      assert CasesFrom(table, unionProperty, caseId, unionId, unionCaseId, current)
          == CasesFrom(table, unionProperty, caseId + 1, unionId, unionCaseId, st.value);
      hoisted, cases, next := st.value.hoisted, st.value.collected, st.value.next;
      caseId := caseId + 1;
    }
    return Success(Collected(hoisted, cases, next));
  }

  /**
   * The body of the loop over cases in `GenerateUnionPropertyParts`: the
   * properties of case `caseId` become the children of a case part whose
   * type is the widest of theirs, and the headers they hoist are passed on.
   */
  method GenerateCase(table: map<string, TypeInfo>, unionProperty: SchemaProperty, caseId: nat, unionId: nat, unionCaseId: int, st: Collected)
    returns (r: Result<Collected, Error>)
    requires unionProperty.cases.Cases? && caseId < |unionProperty.cases.items|
    ensures r == CaseStep(table, unionProperty, caseId, unionId, unionCaseId, st)
    decreases unionProperty, 1
  {
    if unionProperty.cases.items[caseId].properties.NullProperties? {
      return Failure(NullReference);
    }
    var collected := CollectCaseProperties(table, unionProperty, caseId, st.next);
    if collected.Failure? {
      return Failure(collected.error);
    }
    var caseProperties := collected.value.collected;
    var caseType := MaxType(caseProperties);
    if caseType.Failure? {
      return Failure(caseType.error);
    }
    r := Success(Collected(st.hoisted + collected.value.hoisted, st.collected + [Part("", caseType.value, unionId, unionCaseId, caseProperties)], collected.value.next));
  }

  /**
   * The inner loop of `GenerateUnionPropertyParts` over the properties of
   * case `caseId`: leaves become fields valid in that case, and each nested
   * union adds its body to the case and re-yields its other parts outward.
   */
  method CollectCaseProperties(table: map<string, TypeInfo>, unionProperty: SchemaProperty, caseId: nat, nextUnionId: nat)
    returns (r: Result<Collected, Error>)
    requires unionProperty.cases.Cases? && caseId < |unionProperty.cases.items|
    requires unionProperty.cases.items[caseId].properties.Properties?
    ensures r == PropsFrom(table, unionProperty, caseId, 0, Collected([], [], nextUnionId))
    decreases unionProperty, 0
  {
    var c := unionProperty.cases.items[caseId];
    var props := c.properties.items;
    var caseHoisted: seq<Part> := [];
    var caseProperties: seq<Part> := [];
    var next: nat := nextUnionId;
    var j := 0;
    while j < |props|
      invariant j <= |props|
      invariant PropsFrom(table, unionProperty, caseId, j, Collected(caseHoisted, caseProperties, next))
             == PropsFrom(table, unionProperty, caseId, 0, Collected([], [], nextUnionId))
      decreases |props| - j
    {
      var property := props[j];
      assert c in unionProperty.cases.items && property in props;
      if property.IsUnion() {
        var child := GenerateUnionPropertyParts(table, property, caseId, next);
        if child.Failure? {
          return Failure(child.error);
        }
        var childParts := Reverse(child.value.parts);
        if childParts == [] {
          return Failure(EmptySequence);
        }
        caseProperties := caseProperties + [childParts[0]];
        caseHoisted := caseHoisted + childParts[1..];
        next := child.value.next;
      } else {
        var partType := LookupType(table, property.typeName);
        if partType.Failure? {
          return Failure(partType.error);
        }
        caseProperties := caseProperties + [Part(property.name, partType.value, -1, caseId, [])];
      }
      j := j + 1;
    }
    return Success(Collected(caseHoisted, caseProperties, next));
  }

  /**
   * `GenerateParts`: nothing for a union type; for a record, each leaf
   * property becomes a field and each union property yields its parts,
   * with union ids counted from 0.
   */
  method GenerateParts(table: map<string, TypeInfo>, schemaType: SchemaType) returns (r: Result<seq<Part>, Error>)
    ensures r == TypeParts(table, schemaType)
  {
    if schemaType.IsUnion() {
      return Success([]);
    }
    if schemaType.properties.NullProperties? {
      return Failure(NullReference);
    }
    var props := schemaType.properties.items;
    var parts: seq<Part> := [];
    var nextUnionId: nat := 0;
    for k := 0 to |props|
      invariant TopFrom(table, props, k, Gen(parts, nextUnionId)) == TopFrom(table, props, 0, Gen([], 0))
    {
      var property := props[k];
      if property.IsUnion() {
        var unionParts := GenerateUnionPropertyParts(table, property, -1, nextUnionId);
        if unionParts.Failure? {
          return Failure(unionParts.error);
        }
        parts := parts + unionParts.value.parts;
        nextUnionId := unionParts.value.next;
      } else {
        var partType := LookupType(table, property.typeName);
        if partType.Failure? {
          return Failure(partType.error);
        }
        parts := parts + [Part(property.name, partType.value, -1, -1, [])];
      }
    }
    return Success(parts);
  }

  // Bit-field packing
  // ---------------------------------------------------------------------

  /** The width of a part, the key `BinPackBitFields` orders by. */
  function PartBits(p: Part): Int32 {
    p.typ.bits
  }

  /** `b.Sum(p => p.Type.Bits)`: the total width of the parts in a bin. */
  function BitSum(bin: seq<Part>): nat {
    if bin == [] then 0 else BitSum(bin[..|bin| - 1]) + bin[|bin| - 1].typ.bits
  }

  /** Every part in the bins, counted as often as it occurs. */
  function Contents(bins: seq<seq<Part>>): multiset<Part> {
    if bins == [] then multiset{} else Contents(bins[..|bins| - 1]) + multiset(bins[|bins| - 1])
  }

  /**
   * `bins.Find(...)`: the first bin whose running total leaves room for
   * `part` within a 64-bit field, or |bins| when there is none.
   */
  function FirstBitFieldBin(bins: seq<seq<Part>>, part: Part): (j: nat)
    ensures j <= |bins|
    ensures forall i :: 0 <= i < j ==> BitSum(bins[i]) + part.typ.bits > MaxBitFieldBits
    ensures j < |bins| ==> BitSum(bins[j]) + part.typ.bits <= MaxBitFieldBits
  {
    if bins == [] then 0
    else if BitSum(bins[0]) + part.typ.bits <= MaxBitFieldBits then 0
    else 1 + FirstBitFieldBin(bins[1..], part)
  }

  /** One turn of the packing loop for a part narrower than 64 bits. */
  function PlaceBitField(bins: seq<seq<Part>>, part: Part): seq<seq<Part>> {
    var j := FirstBitFieldBin(bins, part);
    if j < |bins| then bins[j := bins[j] + [part]] else bins + [[part]]
  }

  /** The packing loop over `ordered` from part `k` on, with `bins` so far. */
  function PackBitFieldsFrom(ordered: seq<Part>, k: nat, bins: seq<seq<Part>>): Result<seq<seq<Part>>, Error>
    requires k <= |ordered|
    decreases |ordered| - k
  {
    if k == |ordered| then Success(bins)
    else if ordered[k].typ.bits >= MaxBitFieldBits then Failure(BitFieldOverflow(ordered[k].name, ordered[k].typ.bits))
    else PackBitFieldsFrom(ordered, k + 1, PlaceBitField(bins, ordered[k]))
  }

  /**
   * `BinPackBitFields`: the parts, widest first, packed first-fit into
   * groups of at most 64 bits; a part of 64 bits or more throws.
   */
  function BitFieldBins(parts: seq<Part>): Result<seq<seq<Part>>, Error> {
    PackBitFieldsFrom(OrderByDescending(parts, PartBits), 0, [])
  }

  /** Every bin is non-empty and fits in a 64-bit field. */
  ghost predicate BinsFit(bins: seq<seq<Part>>) {
    forall j :: 0 <= j < |bins| ==> |bins[j]| > 0 && BitSum(bins[j]) <= MaxBitFieldBits
  }

  /** Every bin lists its parts widest first. */
  ghost predicate BinsWidestFirst(bins: seq<seq<Part>>) {
    forall j :: 0 <= j < |bins| ==> SortedDescending(bins[j], PartBits)
  }

  /**
   * The parts of `bin` at least `bits` wide, in order. In a bin filled
   * widest first these are the parts it held when a part of width `bits`
   * was offered to it.
   */
  function WidthAtLeast(bin: seq<Part>, bits: int): seq<Part> {
    if bin == [] then []
    else
      var last := bin[|bin| - 1];
      WidthAtLeast(bin[..|bin| - 1], bits) + (if last.typ.bits >= bits then [last] else [])
  }

  /**
   * Every part was refused by every bin opened before its own, as that bin
   * stood when the part was placed: the parts in it at least as wide.
   */
  ghost predicate RefusedEarlier(bins: seq<seq<Part>>) {
    forall i, j, t :: 0 <= i < j < |bins| && 0 <= t < |bins[j]| ==>
      BitSum(WidthAtLeast(bins[i], bins[j][t].typ.bits)) + bins[j][t].typ.bits > MaxBitFieldBits
  }

  /** What the packing loop keeps, and what first fit leaves behind. */
  ghost predicate BitFieldLayout(bins: seq<seq<Part>>) {
    BinsFit(bins) && BinsWidestFirst(bins) && RefusedEarlier(bins)
  }

  /** Every part in the bins is at least `bits` wide. */
  ghost predicate AllAtLeast(bins: seq<seq<Part>>, bits: int) {
    forall j, t :: 0 <= j < |bins| && 0 <= t < |bins[j]| ==> bins[j][t].typ.bits >= bits
  }

  lemma WidthAtLeastAppend(bin: seq<Part>, part: Part, bits: int)
    ensures WidthAtLeast(bin + [part], bits) == WidthAtLeast(bin, bits) + (if part.typ.bits >= bits then [part] else [])
  {
    assert (bin + [part])[..|bin|] == bin;
  }

  /** When every part of `bin` is at least `bits` wide, all of it is kept. */
  lemma {:induction false} WidthAtLeastAll(bin: seq<Part>, bits: int)
    requires forall t :: 0 <= t < |bin| ==> bin[t].typ.bits >= bits
    ensures WidthAtLeast(bin, bits) == bin
    decreases |bin|
  {
    if bin != [] {
      var init := bin[..|bin| - 1];
      WidthAtLeastAll(init, bits);
      assert bin == init + [bin[|bin| - 1]];
    }
  }

  lemma BitSumAppend(bin: seq<Part>, part: Part)
    ensures BitSum(bin + [part]) == BitSum(bin) + part.typ.bits
  {
    assert (bin + [part])[..|bin|] == bin;
  }

  lemma {:induction false} ContentsAddToBin(bins: seq<seq<Part>>, j: nat, part: Part)
    requires j < |bins|
    ensures Contents(bins[j := bins[j] + [part]]) == Contents(bins) + multiset{part}
    decreases |bins|
  {
    var n := |bins|;
    var r := bins[j := bins[j] + [part]];
    if j == n - 1 {
      assert r[..n - 1] == bins[..n - 1];
    } else {
      assert r[..n - 1] == bins[..n - 1][j := bins[j] + [part]];
      ContentsAddToBin(bins[..n - 1], j, part);
    }
  }

  lemma ContentsAddBin(bins: seq<seq<Part>>, part: Part)
    ensures Contents(bins + [[part]]) == Contents(bins) + multiset{part}
  {
    assert (bins + [[part]])[..|bins|] == bins;
  }

  /** Placing a part that fits keeps every bin within 64 bits. */
  lemma PlaceBitFieldFits(bins: seq<seq<Part>>, part: Part)
    requires BinsFit(bins) && part.typ.bits < MaxBitFieldBits
    ensures BinsFit(PlaceBitField(bins, part))
  {
    var f := FirstBitFieldBin(bins, part);
    if f < |bins| {
      BitSumAppend(bins[f], part);
    } else {
      BitSumAppend([], part);
      assert [] + [part] == [part];
    }
  }

  /** Placing a part no wider than any placed keeps every bin widest first. */
  lemma PlaceBitFieldWidestFirst(bins: seq<seq<Part>>, part: Part)
    requires BinsWidestFirst(bins) && AllAtLeast(bins, part.typ.bits)
    ensures BinsWidestFirst(PlaceBitField(bins, part))
  {
    var f := FirstBitFieldBin(bins, part);
    if f < |bins| {
      var b := bins[f] + [part];
      forall t, u | 0 <= t < u < |b|
        ensures PartBits(b[t]) >= PartBits(b[u])
      {
        assert b[t] == bins[f][t];
        if u < |bins[f]| {
          assert b[u] == bins[f][u];
        }
      }
      assert SortedDescending(b, PartBits);
    }
  }

  /**
   * A bin that refused a part of width `w'` still refuses it after taking
   * a part no wider that fitted: the new part only counts when it is as
   * wide, and then it would not have fitted.
   */
  lemma RefusedAfterAdd(bin: seq<Part>, part: Part, w': int)
    requires forall t :: 0 <= t < |bin| ==> bin[t].typ.bits >= part.typ.bits
    requires BitSum(bin) + part.typ.bits <= MaxBitFieldBits && part.typ.bits <= w'
    requires BitSum(WidthAtLeast(bin, w')) + w' > MaxBitFieldBits
    ensures BitSum(WidthAtLeast(bin + [part], w')) + w' > MaxBitFieldBits
  {
    WidthAtLeastAppend(bin, part, w');
    if part.typ.bits >= w' {
      WidthAtLeastAll(bin, part.typ.bits);
      assert false;
    }
    assert WidthAtLeast(bin + [part], w') == WidthAtLeast(bin, w') + [];
    assert WidthAtLeast(bin, w') + [] == WidthAtLeast(bin, w');
  }

  /** A bin without room for `part`, holding only parts at least as wide, refuses it as it stands. */
  lemma RefusedWhole(bin: seq<Part>, part: Part)
    requires forall t :: 0 <= t < |bin| ==> bin[t].typ.bits >= part.typ.bits
    requires BitSum(bin) + part.typ.bits > MaxBitFieldBits
    ensures BitSum(WidthAtLeast(bin, part.typ.bits)) + part.typ.bits > MaxBitFieldBits
  {
    WidthAtLeastAll(bin, part.typ.bits);
  }

  /**
   * Placing a part first fit, no wider than any placed, keeps every part
   * refused by the bins before its own as they stood then.
   */
  lemma PlaceBitFieldRefused(bins: seq<seq<Part>>, part: Part)
    requires RefusedEarlier(bins) && AllAtLeast(bins, part.typ.bits)
    ensures RefusedEarlier(PlaceBitField(bins, part))
  {
    var f := FirstBitFieldBin(bins, part);
    var r: seq<seq<Part>> := PlaceBitField(bins, part);
    forall i, j, t | 0 <= i < j < |r| && 0 <= t < |r[j]|
      ensures BitSum(WidthAtLeast(r[i], r[j][t].typ.bits)) + r[j][t].typ.bits > MaxBitFieldBits
    {
      if j < |bins| && t < |bins[j]| {
        assert r[j][t] == bins[j][t];
        if i == f {
          assert r[i] == bins[f] + [part];
          RefusedAfterAdd(bins[f], part, bins[j][t].typ.bits);
        } else {
          assert r[i] == bins[i];
        }
      } else {
        assert i < f && r[j][t] == part && r[i] == bins[i];
        RefusedWhole(bins[i], part);
      }
    }
  }

  /** Placing a part adds it to the bins, and opens at most one bin. */
  lemma PlaceBitFieldAdds(bins: seq<seq<Part>>, part: Part)
    ensures Contents(PlaceBitField(bins, part)) == Contents(bins) + multiset{part}
    ensures |bins| <= |PlaceBitField(bins, part)| <= |bins| + 1
  {
    var f := FirstBitFieldBin(bins, part);
    if f < |bins| {
      ContentsAddToBin(bins, f, part);
    } else {
      ContentsAddBin(bins, part);
    }
  }

  /** After placing a part, every part is at least as wide as a narrower one. */
  lemma PlaceBitFieldAtLeast(bins: seq<seq<Part>>, part: Part, bits: int)
    requires AllAtLeast(bins, part.typ.bits) && part.typ.bits >= bits
    ensures AllAtLeast(PlaceBitField(bins, part), bits)
  {
    var f := FirstBitFieldBin(bins, part);
    var r: seq<seq<Part>> := PlaceBitField(bins, part);
    forall j, t | 0 <= j < |r| && 0 <= t < |r[j]|
      ensures r[j][t].typ.bits >= bits
    {
      if j < |bins| && !(j == f && t == |bins[f]|) {
        assert r[j][t] == bins[j][t];
      }
    }
  }

  /**
   * The packing loop, run from part `k` with bins holding the parts
   * before it, ends with bins holding every part in the layout, or throws.
   */
  lemma {:induction false} PackBitFieldsFromLayout(ordered: seq<Part>, k: nat, bins: seq<seq<Part>>)
    requires k <= |ordered| && SortedDescending(ordered, PartBits)
    requires BitFieldLayout(bins) && Contents(bins) == multiset(ordered[..k]) && |bins| <= k
    requires k < |ordered| ==> AllAtLeast(bins, ordered[k].typ.bits)
    requires PackBitFieldsFrom(ordered, k, bins).Success?
    ensures var r := PackBitFieldsFrom(ordered, k, bins).value;
      BitFieldLayout(r) && Contents(r) == multiset(ordered) && |r| <= |ordered|
    decreases |ordered| - k
  {
    if k < |ordered| {
      var part := ordered[k];
      var bins': seq<seq<Part>> := PlaceBitField(bins, part);
      assert PackBitFieldsFrom(ordered, k, bins) == PackBitFieldsFrom(ordered, k + 1, bins');
      PlaceBitFieldFits(bins, part);
      PlaceBitFieldWidestFirst(bins, part);
      PlaceBitFieldRefused(bins, part);
      PlaceBitFieldAdds(bins, part);
      MultisetOfPrefix(ordered, k);
      if k + 1 < |ordered| {
        assert PartBits(part) >= PartBits(ordered[k + 1]);
        PlaceBitFieldAtLeast(bins, part, ordered[k + 1].typ.bits);
      }
      PackBitFieldsFromLayout(ordered, k + 1, bins');
    } else {
      assert ordered[..k] == ordered;
    }
  }

  /** Once every remaining part fits in a bit field, the packing loop cannot throw. */
  lemma {:induction false} PackBitFieldsFromSucceeds(ordered: seq<Part>, k: nat, bins: seq<seq<Part>>)
    requires k <= |ordered|
    requires forall i :: k <= i < |ordered| ==> ordered[i].typ.bits < MaxBitFieldBits
    ensures PackBitFieldsFrom(ordered, k, bins).Success?
    decreases |ordered| - k
  {
    if k < |ordered| {
      PackBitFieldsFromSucceeds(ordered, k + 1, PlaceBitField(bins, ordered[k]));
    }
  }

  /** Ordered widest first, the first part is one of the parts and the widest of them. */
  lemma WidestFirst(parts: seq<Part>)
    requires parts != []
    ensures var ordered := OrderByDescending(parts, PartBits);
      && ordered != []
      && ordered[0] in parts
      && forall i :: 0 <= i < |parts| ==> parts[i].typ.bits <= ordered[0].typ.bits
  {
    var ordered := OrderByDescending(parts, PartBits);
    OrderByDescendingSortsPermutation(parts, PartBits);
    assert parts[0] in multiset(ordered);
    assert ordered[0] in multiset(parts);
    forall i | 0 <= i < |parts|
      ensures parts[i].typ.bits <= ordered[0].typ.bits
    {
      assert parts[i] in multiset(ordered);
      var m :| 0 <= m < |ordered| && ordered[m] == parts[i];
      assert PartBits(ordered[0]) >= PartBits(ordered[m]);
    }
  }

  /**
   * `BinPackBitFields` throws exactly when some part is 64 bits wide or
   * wider, and then it names a widest part, before any bin is formed.
   */
  lemma BitFieldBinsFailure(parts: seq<Part>)
    ensures BitFieldBins(parts).Failure? <==> exists i :: 0 <= i < |parts| && parts[i].typ.bits >= MaxBitFieldBits
    ensures BitFieldBins(parts).Failure? ==>
      exists w :: (&& w in parts
                   && BitFieldBins(parts).error == BitFieldOverflow(w.name, w.typ.bits)
                   && forall i :: 0 <= i < |parts| ==> parts[i].typ.bits <= w.typ.bits)
  {
    var ordered := OrderByDescending(parts, PartBits);
    if exists i :: 0 <= i < |parts| && parts[i].typ.bits >= MaxBitFieldBits {
      WidestFirst(parts);
      assert BitFieldBins(parts) == Failure(BitFieldOverflow(ordered[0].name, ordered[0].typ.bits));
    } else {
      OrderByDescendingSortsPermutation(parts, PartBits);
      forall i | 0 <= i < |ordered|
        ensures ordered[i].typ.bits < MaxBitFieldBits
      {
        assert ordered[i] in multiset(parts);
      }
      PackBitFieldsFromSucceeds(ordered, 0, []);
    }
  }

  /**
   * On success the groups hold exactly the parts, each once, in no more
   * groups than parts; each group is non-empty, at most 64 bits wide and
   * widest first; and each part was refused by every earlier group.
   */
  lemma BitFieldBinsLayout(parts: seq<Part>)
    requires BitFieldBins(parts).Success?
    ensures var bins := BitFieldBins(parts).value;
      && BitFieldLayout(bins)
      && Contents(bins) == multiset(parts)
      && |bins| <= |parts|
  {
    var ordered := OrderByDescending(parts, PartBits);
    OrderByDescendingSortsPermutation(parts, PartBits);
    assert ordered[..0] == [];
    PackBitFieldsFromLayout(ordered, 0, []);
    assert |ordered| == |parts| by {
      assert |multiset(ordered)| == |ordered| && |multiset(parts)| == |parts|;
    }
  }

  /** `parts.Where(part => part.Type.Alignment == 0)`: the parts of alignment 0, in order. */
  function ZeroAligned(parts: seq<Part>): (r: seq<Part>)
    ensures forall x :: x in r <==> x in parts && x.typ.alignment == 0
  {
    if parts == [] then []
    else (if parts[0].typ.alignment == 0 then [parts[0]] else []) + ZeroAligned(parts[1..])
  }

  /** The filter keeps every part of alignment 0 as often as it occurs, and no other part. */
  lemma {:induction false} ZeroAlignedCounts(parts: seq<Part>)
    ensures forall x :: multiset(ZeroAligned(parts))[x] == if x.typ.alignment == 0 then multiset(parts)[x] else 0
    decreases |parts|
  {
    if parts != [] {
      ZeroAlignedCounts(parts[1..]);
      assert parts == [parts[0]] + parts[1..];
    }
  }

  /**
   * The filter keeps the order of `parts`: filtering a concatenation
   * filters each side and concatenates the results.
   */
  lemma {:induction false} ZeroAlignedAppend(a: seq<Part>, b: seq<Part>)
    ensures ZeroAligned(a + b) == ZeroAligned(a) + ZeroAligned(b)
    decreases |a|
  {
    if a != [] {
      var head := if a[0].typ.alignment == 0 then [a[0]] else [];
      assert (a + b)[1..] == a[1..] + b;
      ZeroAlignedAppend(a[1..], b);
      calc {
        ZeroAligned(a + b);
        head + ZeroAligned(a[1..] + b);
        head + (ZeroAligned(a[1..]) + ZeroAligned(b));
        (head + ZeroAligned(a[1..])) + ZeroAligned(b);
        ZeroAligned(a) + ZeroAligned(b);
      }
    } else {
      assert a + b == b;
    }
  }

  /**
   * `GenerateType` as far as it is written: the type's parts, its parts of
   * alignment 0 packed into bit fields (a result then left unused), and
   * all its parts packed into bit fields, which becomes the new `parts`.
   */
  function TypeLayout(table: map<string, TypeInfo>, t: SchemaType): Result<seq<seq<Part>>, Error> {
    var parts :- TypeParts(table, t);
    var bitFieldParts :- BitFieldBins(ZeroAligned(parts));
    BitFieldBins(parts)
  }

  /**
   * Because every part is packed into bit fields, a type whose parts
   * generate fails exactly when one of them is 64 bits wide or wider.
   */
  lemma TypeLayoutRejectsWideParts(table: map<string, TypeInfo>, t: SchemaType)
    requires TypeParts(table, t).Success?
    ensures var parts := TypeParts(table, t).value;
      TypeLayout(table, t).Failure? <==> exists i :: 0 <= i < |parts| && parts[i].typ.bits >= MaxBitFieldBits
  {
    var parts := TypeParts(table, t).value;
    var zero := ZeroAligned(parts);
    BitFieldBinsFailure(parts);
    BitFieldBinsFailure(zero);
    if BitFieldBins(zero).Failure? {
      var i :| 0 <= i < |zero| && zero[i].typ.bits >= MaxBitFieldBits;
      assert zero[i] in parts;
      var m :| 0 <= m < |parts| && parts[m] == zero[i];
    }
  }

  /** A record with a single 64-bit field, as every `s64`, `u64` or `f64` is, is rejected. */
  lemma SixtyFourBitFieldRejected(name: string, typeName: string)
    requires typeName in ["s64", "u64", "f64"]
    ensures TypeLayout(DiscoveredTypes(), SchemaType("T", Properties([SchemaProperty(name, typeName, NullCases)]), None)).Failure?
  {
    var t := SchemaType("T", Properties([SchemaProperty(name, typeName, NullCases)]), None);
    LookupIntrinsic(typeName);
    var k :| 7 <= k < |IntrinsicTypes| && IntrinsicTypes[k].name == typeName && k != 9;
    assert IntrinsicTypes[k].bits == 64;
    RecordOfLeaves(DiscoveredTypes(), t);
    TypeLayoutRejectsWideParts(DiscoveredTypes(), t);
    assert TypeParts(DiscoveredTypes(), t).value[0].typ.bits == 64;
  }

  /**
   * Parts of 30, 30 and 10 bits cannot end as [[30, 10], [30]]: the first
   * group, holding one 30-bit part when the second came, had room for it.
   */
  lemma LateFillIsNoLayout(a: Part, b: Part, c: Part)
    requires a.typ.bits == 30 && b.typ.bits == 30 && c.typ.bits == 10
    ensures !BitFieldLayout([[a, c], [b]])
  {
    var bins: seq<seq<Part>> := [[a, c], [b]];
    WidthAtLeastAppend([], a, 30);
    assert [] + [a] == [a];
    WidthAtLeastAppend([a], c, 30);
    assert [a] + [c] == [a, c];
    assert WidthAtLeast(bins[0], bins[1][0].typ.bits) == [a];
    BitSumAppend([], a);
    assert BitSum(WidthAtLeast(bins[0], bins[1][0].typ.bits)) + bins[1][0].typ.bits <= MaxBitFieldBits;
  }

  /**
   * Three 32-bit parts: the running sum keeps the first two in one 64-bit
   * field and opens a second for the third.
   */
  lemma ThreeHalvesPackIntoTwo(a: Part, b: Part, c: Part)
    requires a.typ.bits == 32 && b.typ.bits == 32 && c.typ.bits == 32
    ensures BitFieldBins([a, b, c]) == Success([[a, b], [c]])
  {
    var parts := [a, b, c];
    assert SortedDescending(parts, PartBits);
    OrderByDescendingOfSorted(parts, PartBits);
    assert BitSum([a]) == 32 by { BitSumAppend([], a); assert [] + [a] == [a]; }
    assert BitSum([a, b]) == 64 by { BitSumAppend([a], b); }
    assert FirstBitFieldBin([[a]], b) == 0;
    assert [a] + [b] == [a, b];
    assert FirstBitFieldBin([[a, b]], c) == 1;
    calc {
      BitFieldBins(parts);
      PackBitFieldsFrom(parts, 0, []);
    == { assert parts[0] == a && PlaceBitField([], a) == [[a]]; }
      PackBitFieldsFrom(parts, 1, [[a]]);
    == { assert parts[1] == b && PlaceBitField([[a]], b) == [[a, b]]; }
      PackBitFieldsFrom(parts, 2, [[a, b]]);
    == { assert parts[2] == c && PlaceBitField([[a, b]], c) == [[a, b], [c]]; }
      PackBitFieldsFrom(parts, 3, [[a, b], [c]]);
    }
  }

  /**
   * `GenerateType`, up to the point where the source stops: generate the
   * parts, pack those of alignment 0, then pack them all.
   */
  method GenerateType(table: map<string, TypeInfo>, schemaType: SchemaType) returns (r: Result<seq<seq<Part>>, Error>)
    ensures r == TypeLayout(table, schemaType)
  {
    var parts := GenerateParts(table, schemaType);
    if parts.Failure? {
      return Failure(parts.error);
    }
    var bitFieldParts := BinPackBitFields(ZeroAligned(parts.value));
    if bitFieldParts.Failure? {
      return Failure(bitFieldParts.error);
    }
    r := BinPackBitFields(parts.value);
  }

  /**
   * `BinPackBitFields`: orders the parts widest first and places each in the
   * first group with room left for it, opening a group when none has;
   * a part of 64 bits or more throws.
   */
  method BinPackBitFields(parts: seq<Part>) returns (r: Result<seq<seq<Part>>, Error>)
    ensures r == BitFieldBins(parts)
  {
    var orderedParts := OrderByDescending(parts, PartBits);
    var bins: seq<seq<Part>> := [];
    for k := 0 to |orderedParts|
      invariant PackBitFieldsFrom(orderedParts, k, bins) == PackBitFieldsFrom(orderedParts, 0, [])
    {
      var part := orderedParts[k];
      if part.typ.bits >= MaxBitFieldBits {
        return Failure(BitFieldOverflow(part.name, part.typ.bits));
      }
      var bin := FirstBitFieldBin(bins, part);
      if bin < |bins| {
        bins := bins[bin := bins[bin] + [part]];
      } else {
        bins := bins + [[part]];
      }
    }
    return Success(bins);
  }
}

=== FILE: EnumerableExtensions.dfy ===
/**
 * The generic first-fit-decreasing bin packer. Items are taken largest
 * first and each goes into the first bin whose recorded size accepts it;
 * when none does, a new bin is opened for it.
 *
 * A bin is a pair of an item list and a size. The list is shared with the
 * copy the packer works on, so an item added to the copy lands in the bin,
 * but the size written to the copy is lost: a bin keeps the size it was
 * created with, `sumSelector(0, firstItem)`, for good, and every later
 * capacity check is made against that size.
 */
module EnumerableExtensions {
  import opened Int32Arithmetic
  import opened Linq

  /** A bin: the items placed in it and the size recorded for it. */
  datatype Bin<T> = Bin(items: seq<T>, size: Int32)

  /** The items of all bins, bin after bin. */
  function Flatten<T>(bins: seq<Bin<T>>): seq<T> {
    if bins == [] then [] else Flatten(bins[..|bins| - 1]) + bins[|bins| - 1].items
  }

  /**
   * The query of the packer: the index of the first bin whose recorded
   * size accepts `item`, or |bins| when no bin does.
   */
  function FirstFit<T>(bins: seq<Bin<T>>, item: T, binSize: Int32, sumSelector: (Int32, T) -> Int32): (j: nat)
    ensures j <= |bins|
    ensures forall i :: 0 <= i < j ==> sumSelector(bins[i].size, item) > binSize
    ensures j < |bins| ==> sumSelector(bins[j].size, item) <= binSize
  {
    if bins == [] then 0
    else if sumSelector(bins[0].size, item) <= binSize then 0
    else 1 + FirstFit(bins[1..], item, binSize, sumSelector)
  }

  /**
   * One step of the packer: the item is appended to the first bin that
   * accepts it, whose size stays as it was, or else gets a new bin of its
   * own whose size is `sumSelector(0, item)`.
   */
  function Place<T>(bins: seq<Bin<T>>, item: T, binSize: Int32, sumSelector: (Int32, T) -> Int32): seq<Bin<T>> {
    var j := FirstFit(bins, item, binSize, sumSelector);
    if j < |bins| then bins[j := Bin(bins[j].items + [item], bins[j].size)]
    else bins + [Bin([item], sumSelector(0, item))]
  }

  /** The bins after placing `items` one after the other, starting with none. */
  function Packed<T>(items: seq<T>, binSize: Int32, sumSelector: (Int32, T) -> Int32): seq<Bin<T>> {
    if items == [] then []
    else Place(Packed(items[..|items| - 1], binSize, sumSelector), items[|items| - 1], binSize, sumSelector)
  }

  /**
   * The shape first fit leaves behind, given that sizes are never updated:
   * every bin is non-empty and records `sumSelector(0, firstItem)`; every
   * later item of a bin was accepted by that recorded size; and every item
   * was refused by every bin listed before its own. With `InTakingOrder`
   * the bins listed before are the bins created before.
   */
  ghost predicate FirstFitLayout<T>(bins: seq<Bin<T>>, binSize: Int32, sumSelector: (Int32, T) -> Int32) {
    && (forall j :: 0 <= j < |bins| ==>
          |bins[j].items| > 0 && bins[j].size == sumSelector(0, bins[j].items[0]))
    && (forall j, t :: 0 <= j < |bins| && 1 <= t < |bins[j].items| ==>
          sumSelector(bins[j].size, bins[j].items[t]) <= binSize)
    && (forall i, j, t :: 0 <= i < j < |bins| && 0 <= t < |bins[j].items| ==>
          sumSelector(bins[i].size, bins[j].items[t]) > binSize)
  }

  /**
   * `pos` locates the items of `bins` in `items`, the sequence they were
   * taken from: the t-th item of bin j is `items[pos[j][t]]`; every bin is
   * non-empty and lists its items in the order they were taken; the bins
   * come in the order they were created, that is by their first items;
   * and no two bins claim the same item.
   */
  ghost predicate TakenInOrder<T>(bins: seq<Bin<T>>, items: seq<T>, pos: seq<seq<int>>) {
    && |pos| == |bins|
    && (forall j :: 0 <= j < |bins| ==> |pos[j]| == |bins[j].items|)
    && (forall j, t :: 0 <= j < |pos| && 0 <= t < |pos[j]| ==>
          0 <= pos[j][t] < |items| && bins[j].items[t] == items[pos[j][t]])
    && Positioned(pos)
  }

  /**
   * The shape of the positions alone: every bin has one, increasing within
   * a bin, first positions increasing across bins, none claimed twice.
   */
  ghost predicate Positioned(pos: seq<seq<int>>) {
    && (forall j :: 0 <= j < |pos| ==> 0 < |pos[j]|)
    && (forall j, t, u :: 0 <= j < |pos| && 0 <= t < u < |pos[j]| ==> pos[j][t] < pos[j][u])
    && (forall i, j :: 0 <= i < j < |pos| ==> pos[i][0] < pos[j][0])
    && (forall i, j, t, u :: 0 <= i < j < |pos| && 0 <= t < |pos[i]| && 0 <= u < |pos[j]| ==> pos[i][t] != pos[j][u])
  }

  /** The bins are filled from `items` taken one at a time, in order. */
  ghost predicate InTakingOrder<T>(bins: seq<Bin<T>>, items: seq<T>) {
    exists pos :: TakenInOrder(bins, items, pos)
  }

  /** Every position in `pos` is below `n`. */
  ghost predicate AllBelow(pos: seq<seq<int>>, n: int) {
    forall j, t :: 0 <= j < |pos| && 0 <= t < |pos[j]| ==> pos[j][t] < n
  }

  /** Within every bin, keys never increase. */
  ghost predicate BinsDescending<T>(bins: seq<Bin<T>>, key: T -> Int32) {
    forall j :: 0 <= j < |bins| ==> SortedDescending(bins[j].items, key)
  }

  lemma {:induction false} FlattenAddToBin<T>(bins: seq<Bin<T>>, j: nat, item: T)
    requires j < |bins|
    ensures multiset(Flatten(bins[j := Bin(bins[j].items + [item], bins[j].size)]))
         == multiset(Flatten(bins)) + multiset{item}
    decreases |bins|
  {
    var updated := bins[j := Bin(bins[j].items + [item], bins[j].size)];
    var n := |bins| - 1;
    assert Flatten(updated) == Flatten(updated[..n]) + updated[n].items;
    assert Flatten(bins) == Flatten(bins[..n]) + bins[n].items;
    if j < n {
      assert multiset(Flatten(updated[..n])) == multiset(Flatten(bins[..n])) + multiset{item} by {
        FlattenAddToBin(bins[..n], j, item);
        assert updated[..n] == bins[..n][j := Bin(bins[j].items + [item], bins[j].size)];
      }
      assert updated[n] == bins[n];
    } else {
      assert updated[..n] == bins[..n];
      assert updated[n].items == bins[n].items + [item];
    }
  }

  lemma FlattenAddBin<T>(bins: seq<Bin<T>>, b: Bin<T>)
    ensures Flatten(bins + [b]) == Flatten(bins) + b.items
  {
    assert (bins + [b])[..|bins|] == bins;
  }

  /** An item of a bin is one of the flattened items. */
  lemma {:induction false} InFlatten<T>(bins: seq<Bin<T>>, j: nat, t: nat)
    requires j < |bins| && t < |bins[j].items|
    ensures bins[j].items[t] in multiset(Flatten(bins))
    decreases |bins|
  {
    var n := |bins| - 1;
    if j < n {
      InFlatten(bins[..n], j, t);
    } else {
      assert Flatten(bins) == Flatten(bins[..n]) + bins[n].items;
      assert bins[j].items[t] in bins[n].items;
    }
  }

  lemma AddToBinKeepsLayout<T>(bins: seq<Bin<T>>, j: nat, item: T, binSize: Int32, sumSelector: (Int32, T) -> Int32)
    requires FirstFitLayout(bins, binSize, sumSelector)
    requires j < |bins| && j == FirstFit(bins, item, binSize, sumSelector)
    ensures FirstFitLayout(bins[j := Bin(bins[j].items + [item], bins[j].size)], binSize, sumSelector)
  {
    var b := Bin(bins[j].items + [item], bins[j].size);
    var r := bins[j := b];
    assert forall m :: 0 <= m < |r| ==> r[m].size == bins[m].size;
    assert forall t :: 0 <= t < |bins[j].items| ==> b.items[t] == bins[j].items[t];
    forall m | 0 <= m < |r|
      ensures |r[m].items| > 0 && r[m].size == sumSelector(0, r[m].items[0])
    {
    }
    forall m, t | 0 <= m < |r| && 1 <= t < |r[m].items|
      ensures sumSelector(r[m].size, r[m].items[t]) <= binSize
    {
      if m == j && t == |b.items| - 1 {
        assert r[m].items[t] == item;
      }
    }
    forall i, m, t | 0 <= i < m < |r| && 0 <= t < |r[m].items|
      ensures sumSelector(r[i].size, r[m].items[t]) > binSize
    {
      if m == j && t == |b.items| - 1 {
        assert r[m].items[t] == item;
      } else {
        assert r[m].items[t] == bins[m].items[t];
      }
    }
  }

  lemma NewBinKeepsLayout<T>(bins: seq<Bin<T>>, item: T, binSize: Int32, sumSelector: (Int32, T) -> Int32)
    requires FirstFitLayout(bins, binSize, sumSelector)
    requires FirstFit(bins, item, binSize, sumSelector) == |bins|
    ensures FirstFitLayout(bins + [Bin([item], sumSelector(0, item))], binSize, sumSelector)
  {
    var r := bins + [Bin([item], sumSelector(0, item))];
    forall i, m, t | 0 <= i < m < |r| && 0 <= t < |r[m].items|
      ensures sumSelector(r[i].size, r[m].items[t]) > binSize
    {
      if m == |bins| {
        assert r[m].items[t] == item;
      }
    }
  }

  /** One placement keeps the layout. */
  lemma PlaceKeepsLayout<T>(bins: seq<Bin<T>>, item: T, binSize: Int32, sumSelector: (Int32, T) -> Int32)
    requires FirstFitLayout(bins, binSize, sumSelector)
    ensures FirstFitLayout(Place(bins, item, binSize, sumSelector), binSize, sumSelector)
  {
    if FirstFit(bins, item, binSize, sumSelector) < |bins| {
      AddToBinKeepsLayout(bins, FirstFit(bins, item, binSize, sumSelector), item, binSize, sumSelector);
    } else {
      NewBinKeepsLayout(bins, item, binSize, sumSelector);
    }
  }

  /** One placement adds exactly the item, and at most one bin. */
  lemma PlaceAddsItem<T>(bins: seq<Bin<T>>, item: T, binSize: Int32, sumSelector: (Int32, T) -> Int32)
    ensures multiset(Flatten(Place(bins, item, binSize, sumSelector))) == multiset(Flatten(bins)) + multiset{item}
    ensures |Place(bins, item, binSize, sumSelector)| <= |bins| + 1
  {
    var j := FirstFit(bins, item, binSize, sumSelector);
    if j < |bins| {
      FlattenAddToBin(bins, j, item);
    } else {
      FlattenAddBin(bins, Bin([item], sumSelector(0, item)));
    }
  }

  /** Appending position `n`, above all others, to bin `j` keeps the shape. */
  lemma PositionedAfterAdd(pos: seq<seq<int>>, j: nat, n: int)
    requires Positioned(pos) && AllBelow(pos, n) && j < |pos|
    ensures Positioned(pos[j := pos[j] + [n]]) && AllBelow(pos[j := pos[j] + [n]], n + 1)
  {
    var pos' := pos[j := pos[j] + [n]];
    assert forall t :: 0 <= t < |pos[j]| ==> pos'[j][t] == pos[j][t];
    assert pos'[j][|pos[j]|] == n;
    forall i, m, t, u | 0 <= i < m < |pos'| && 0 <= t < |pos'[i]| && 0 <= u < |pos'[m]|
      ensures pos'[i][t] != pos'[m][u]
    {
      if i == j && t == |pos[j]| {
        assert pos'[m][u] == pos[m][u] < n;
      } else if m == j && u == |pos[j]| {
        assert pos'[i][t] == pos[i][t] < n;
      }
    }
  }

  /** Item `n`, taken after all placed ones, joins bin `j` at its end. */
  lemma TakenAddToBin<T>(bins: seq<Bin<T>>, items: seq<T>, pos: seq<seq<int>>, j: nat, n: nat)
    requires TakenInOrder(bins, items, pos) && AllBelow(pos, n) && n < |items| && j < |bins|
    ensures var bins' := bins[j := Bin(bins[j].items + [items[n]], bins[j].size)];
      var pos' := pos[j := pos[j] + [n]];
      TakenInOrder(bins', items, pos') && AllBelow(pos', n + 1)
  {
    var bins' := bins[j := Bin(bins[j].items + [items[n]], bins[j].size)];
    var pos' := pos[j := pos[j] + [n]];
    PositionedAfterAdd(pos, j, n);
    assert forall t :: 0 <= t < |pos[j]| ==> pos'[j][t] == pos[j][t] && bins'[j].items[t] == bins[j].items[t];
    assert pos'[j][|pos[j]|] == n && bins'[j].items[|pos[j]|] == items[n];
  }

  /** Item `n`, taken after all placed ones, opens a new bin at the end. */
  lemma TakenNewBin<T>(bins: seq<Bin<T>>, items: seq<T>, pos: seq<seq<int>>, size: Int32, n: nat)
    requires TakenInOrder(bins, items, pos) && AllBelow(pos, n) && n < |items|
    ensures TakenInOrder(bins + [Bin([items[n]], size)], items, pos + [[n]]) && AllBelow(pos + [[n]], n + 1)
  {
    PositionedAfterNew(pos, n);
  }

  /** Opening a bin at position `n`, above all others, keeps the shape. */
  lemma PositionedAfterNew(pos: seq<seq<int>>, n: int)
    requires Positioned(pos) && AllBelow(pos, n)
    ensures Positioned(pos + [[n]]) && AllBelow(pos + [[n]], n + 1)
  {
    var pos' := pos + [[n]];
    assert forall j :: 0 <= j < |pos| ==> pos'[j] == pos[j];
    assert pos'[|pos|] == [n];
  }

  /** Placing item `n`, taken after all placed ones, keeps the taking order. */
  lemma PlaceTaken<T>(bins: seq<Bin<T>>, items: seq<T>, pos: seq<seq<int>>, n: nat, binSize: Int32, sumSelector: (Int32, T) -> Int32)
      returns (pos': seq<seq<int>>)
    requires TakenInOrder(bins, items, pos) && AllBelow(pos, n) && n < |items|
    ensures TakenInOrder(Place(bins, items[n], binSize, sumSelector), items, pos') && AllBelow(pos', n + 1)
  {
    var j := FirstFit(bins, items[n], binSize, sumSelector);
    if j < |bins| {
      TakenAddToBin(bins, items, pos, j, n);
      pos' := pos[j := pos[j] + [n]];
    } else {
      TakenNewBin(bins, items, pos, sumSelector(0, items[n]), n);
      pos' := pos + [[n]];
    }
  }

  /** Positions for the first `k` items, placed in taking order. */
  lemma {:induction false} PackedPrefixPositions<T>(items: seq<T>, k: nat, binSize: Int32, sumSelector: (Int32, T) -> Int32)
      returns (pos: seq<seq<int>>)
    requires k <= |items|
    ensures TakenInOrder(Packed(items[..k], binSize, sumSelector), items, pos) && AllBelow(pos, k)
  {
    if k == 0 {
      pos := [];
    } else {
      var pos0 := PackedPrefixPositions(items, k - 1, binSize, sumSelector);
      assert items[..k][..k - 1] == items[..k - 1];
      pos := PlaceTaken(Packed(items[..k - 1], binSize, sumSelector), items, pos0, k - 1, binSize, sumSelector);
    }
  }

  /**
   * The packer fills its bins in taking order: each bin lists its items in
   * the order they were taken, and the bins come in the order they were
   * created.
   */
  lemma PackedInTakingOrder<T>(items: seq<T>, binSize: Int32, sumSelector: (Int32, T) -> Int32)
    ensures InTakingOrder(Packed(items, binSize, sumSelector), items)
  {
    assert items[..|items|] == items;
    var pos := PackedPrefixPositions(items, |items|, binSize, sumSelector);
  }

  /** The packer's result is a first-fit layout. */
  lemma {:induction false} PackedIsFirstFit<T>(items: seq<T>, binSize: Int32, sumSelector: (Int32, T) -> Int32)
    ensures FirstFitLayout(Packed(items, binSize, sumSelector), binSize, sumSelector)
  {
    if items != [] {
      var init := items[..|items| - 1];
      PackedIsFirstFit(init, binSize, sumSelector);
      PlaceKeepsLayout(Packed(init, binSize, sumSelector), items[|items| - 1], binSize, sumSelector);
    }
  }

  /**
   * The packer's bins hold exactly the input items, with no more bins than
   * items (and none for no items).
   */
  lemma {:induction false} PackedHoldsItems<T>(items: seq<T>, binSize: Int32, sumSelector: (Int32, T) -> Int32)
    ensures multiset(Flatten(Packed(items, binSize, sumSelector))) == multiset(items)
    ensures |Packed(items, binSize, sumSelector)| <= |items|
  {
    if items != [] {
      var init, last := items[..|items| - 1], items[|items| - 1];
      var bins := Packed(init, binSize, sumSelector);
      PackedHoldsItems(init, binSize, sumSelector);
      PlaceAddsItem(bins, last, binSize, sumSelector);
      assert Packed(items, binSize, sumSelector) == Place(bins, last, binSize, sumSelector);
      calc {
        multiset(Flatten(Packed(items, binSize, sumSelector)));
        multiset(Flatten(bins)) + multiset{last};
        multiset(init) + multiset{last};
      == { MultisetOfPrefix(items, |items| - 1); }
        multiset(items[..|items|]);
      == { assert items[..|items|] == items; }
        multiset(items);
      }
    }
  }

  /**
   * Placed in descending key order, every bin lists its items in the order
   * they were taken, so in descending key order as well.
   */
  lemma PackedBinsDescending<T>(items: seq<T>, key: T -> Int32, binSize: Int32, sumSelector: (Int32, T) -> Int32)
    requires SortedDescending(items, key)
    ensures InTakingOrder(Packed(items, binSize, sumSelector), items)
    ensures BinsDescending(Packed(items, binSize, sumSelector), key)
  {
    assert items[..|items|] == items;
    var pos := PackedPrefixPositions(items, |items|, binSize, sumSelector);
    TakenFromSortedIsSorted(Packed(items, binSize, sumSelector), items, pos, key);
  }

  /** Items taken in order from a sorted sequence are sorted in every bin. */
  lemma TakenFromSortedIsSorted<T>(bins: seq<Bin<T>>, items: seq<T>, pos: seq<seq<int>>, key: T -> Int32)
    requires TakenInOrder(bins, items, pos) && SortedDescending(items, key)
    ensures BinsDescending(bins, key)
  {
    forall j, t, u | 0 <= j < |bins| && 0 <= t < u < |bins[j].items|
      ensures key(bins[j].items[t]) >= key(bins[j].items[u])
    {
      assert pos[j][t] < pos[j][u];
    }
  }


  /**
   * Packing the items in descending size order gives a first-fit layout,
   * filled in the order the sorted items are taken, holding exactly the
   * input items, each bin in descending size order, with no more bins than
   * items.
   */
  lemma FirstFitDecreasing<T>(self: seq<T>, binSize: Int32, sizeSelector: T -> Int32, sumSelector: (Int32, T) -> Int32)
    ensures var bins := Packed(OrderByDescending(self, sizeSelector), binSize, sumSelector);
      && FirstFitLayout(bins, binSize, sumSelector)
      && InTakingOrder(bins, OrderByDescending(self, sizeSelector))
      && BinsDescending(bins, sizeSelector)
      && multiset(Flatten(bins)) == multiset(self)
      && |bins| <= |self|
  {
    var ordered := OrderByDescending(self, sizeSelector);
    OrderByDescendingSortsPermutation(self, sizeSelector);
    assert |multiset(ordered)| == |multiset(self)|;
    PackedIsFirstFit(ordered, binSize, sumSelector);
    PackedHoldsItems(ordered, binSize, sumSelector);
    PackedBinsDescending(ordered, sizeSelector, binSize, sumSelector);
  }

  /**
   * The query `from bin in bins where sumSelector(bin.size, item) <= binSize
   * select bin` with `FirstOrDefault`, as the index of the bin it finds
   * (|bins| standing for the default).
   */
  method FindAvailableBin<T>(bins: seq<Bin<T>>, item: T, binSize: Int32, sumSelector: (Int32, T) -> Int32)
    returns (k: nat)
    ensures k == FirstFit(bins, item, binSize, sumSelector)
  {
    k := 0;
    while k < |bins| && sumSelector(bins[k].size, item) > binSize
      invariant k <= |bins|
      invariant forall m :: 0 <= m < k ==> sumSelector(bins[m].size, item) > binSize
    {
      k := k + 1;
    }
  }

  /**
   * The general overload. The items are ordered by descending
   * `sizeSelector`, stably; each then goes through the bins in creation
   * order to the first whose recorded size passes
   * `sumSelector(size, item) <= binSize`, or into a new bin.
   */
  method BinPack<T>(self: seq<T>, binSize: Int32, sizeSelector: T -> Int32, sumSelector: (Int32, T) -> Int32)
    returns (result: seq<Bin<T>>)
    ensures result == Packed(OrderByDescending(self, sizeSelector), binSize, sumSelector)
    ensures FirstFitLayout(result, binSize, sumSelector)
    ensures InTakingOrder(result, OrderByDescending(self, sizeSelector))
    ensures BinsDescending(result, sizeSelector)
    ensures multiset(Flatten(result)) == multiset(self)
    ensures |result| <= |self|
  {
    var ordered := OrderByDescending(self, sizeSelector);
    var bins: seq<Bin<T>> := [];
    for i := 0 to |ordered|
      invariant bins == Packed(ordered[..i], binSize, sumSelector)
    {
      var item := ordered[i];
      var k := FindAvailableBin(bins, item, binSize, sumSelector);
      if k < |bins| {
        // `availableBin` is a copy of the pair: the item list it shares with
        // the bin receives the item, the size written to it goes nowhere.
        var availableBin := bins[k];
        var newSize := sumSelector(availableBin.size, item);
        bins := bins[k := bins[k].(items := bins[k].items + [item])];
        availableBin := availableBin.(size := newSize);
      } else {
        bins := bins + [Bin([item], sumSelector(0, item))];
      }
      assert ordered[..i + 1][..i] == ordered[..i];
    }
    assert ordered[..|ordered|] == ordered;
    result := bins;
    FirstFitDecreasing(self, binSize, sizeSelector, sumSelector);
  }

  /** The capacity check of the summing overload: the recorded size plus the item's size, wrapping. */
  function SumBySize<T>(sizeSelector: T -> Int32): (Int32, T) -> Int32 {
    (bin: Int32, item: T) => Wrap32(bin + sizeSelector(item))
  }

  /** What the summing overload returns. */
  function BinPackBySizeSpec<T>(self: seq<T>, binSize: Int32, sizeSelector: T -> Int32): seq<Bin<T>> {
    Packed(OrderByDescending(self, sizeSelector), binSize, SumBySize(sizeSelector))
  }

  /** The summing overload: bins are checked by adding the item's size. */
  method BinPackBySize<T>(self: seq<T>, binSize: Int32, sizeSelector: T -> Int32) returns (result: seq<Bin<T>>)
    ensures result == BinPackBySizeSpec(self, binSize, sizeSelector)
    ensures multiset(Flatten(result)) == multiset(self)
    ensures forall j :: 0 <= j < |result| ==>
      |result[j].items| > 0 && result[j].size == sizeSelector(result[j].items[0])
  {
    result := BinPack(self, binSize, sizeSelector, SumBySize(sizeSelector));
    forall j | 0 <= j < |result|
      ensures |result[j].items| > 0 && result[j].size == sizeSelector(result[j].items[0])
    {
      SumBySizeFromEmpty(sizeSelector, result[j].items[0]);
    }
  }

  lemma SumBySizeFromEmpty<T>(sizeSelector: T -> Int32, item: T)
    ensures SumBySize(sizeSelector)(0, item) == sizeSelector(item)
  {
    var size := sizeSelector(item);
    assert Wrap32(0 + size) == size;
    assert SumBySize(sizeSelector)(0, item) == Wrap32(0 + size);
  }

  lemma SumBySizeOf<T>(sizeSelector: T -> Int32, bin: Int32, item: T)
    ensures SumBySize(sizeSelector)(bin, item) == Wrap32(bin + sizeSelector(item))
  {
  }

  function Identity(x: Int32): Int32 {
    x
  }

  /**
   * Sizes 50, 40 and 10 in bins of 64: letting 10 join the 40 gives a
   * layout in which every item was refused by every bin listed before its
   * own ...
   */
  lemma LateBinIsListLayout()
    ensures var bins: seq<Bin<Int32>> := [Bin([40, 10], 40), Bin([50], 50)];
      FirstFitLayout(bins, 64, SumBySize<Int32>(Identity))
  {
    var bins: seq<Bin<Int32>> := [Bin([40, 10], 40), Bin([50], 50)];
    var sel := SumBySize<Int32>(Identity);
    SumBySizeFromEmpty<Int32>(Identity, 40);
    SumBySizeFromEmpty<Int32>(Identity, 50);
    SumBySizeOf<Int32>(Identity, 40, 10);
    SumBySizeOf<Int32>(Identity, 40, 50);
    assert Wrap32(40 + 10) == 50 && Wrap32(40 + 50) == 90;
    forall j | 0 <= j < |bins|
      ensures |bins[j].items| > 0 && bins[j].size == sel(0, bins[j].items[0])
    {
      if j == 0 { assert bins[j].items[0] == 40; } else { assert bins[j].items[0] == 50; }
    }
    forall j, t | 0 <= j < |bins| && 1 <= t < |bins[j].items|
      ensures sel(bins[j].size, bins[j].items[t]) <= 64
    {
      assert j == 0 && t == 1 && bins[j].size == 40 && bins[j].items[t] == 10;
    }
    forall i, j, t | 0 <= i < j < |bins| && 0 <= t < |bins[j].items|
      ensures sel(bins[i].size, bins[j].items[t]) > 64
    {
      assert i == 0 && j == 1 && t == 0 && bins[i].size == 40 && bins[j].items[t] == 50;
    }
  }

  /**
   * ... but its bins do not come in the order they were created, since 40
   * is taken after 50; the packer gives `[Bin([50, 10], 50), Bin([40], 40)]`.
   */
  lemma LateBinIsNotTakingOrder()
    ensures !InTakingOrder([Bin([40, 10], 40), Bin([50], 50)], [50, 40, 10])
  {
    var bins: seq<Bin<int>> := [Bin([40, 10], 40), Bin([50], 50)];
    var items: seq<int> := [50, 40, 10];
    forall pos: seq<seq<int>>
      ensures !TakenInOrder(bins, items, pos)
    {
      if |pos| == 2 && |pos[0]| == 2 && |pos[1]| == 1 && 0 <= pos[0][0] < 3 && 0 <= pos[1][0] < 3
        && items[pos[0][0]] == 40 && items[pos[1][0]] == 50
      {
        assert pos[0][0] == 1 && pos[1][0] == 0;
      }
    }
  }

  /** The first bin opened for an item of size 32 records 32. */
  lemma PackOneThirtyTwo()
    ensures Packed([32 as Int32], 64, SumBySize<Int32>(Identity)) == [Bin([32], 32)]
  {
    SumBySizeFromEmpty<Int32>(Identity, 32);
    assert [32 as Int32][..0] == [];
  }

  /** A second item of size 32 fits: 32 + 32 <= 64. */
  lemma PackTwoThirtyTwo()
    ensures Packed([32 as Int32, 32], 64, SumBySize<Int32>(Identity)) == [Bin([32, 32], 32)]
  {
    var one: seq<Int32> := [32];
    var two: seq<Int32> := [32, 32];
    PackOneThirtyTwo();
    SumBySizeOf<Int32>(Identity, 32, 32);
    assert Wrap32(32 + 32) == 64;
    assert FirstFit([Bin(one, 32)], 32, 64, SumBySize<Int32>(Identity)) == 0;
    assert one + [32] == two;
    assert two[..1] == one;
  }

  /**
   * Because sizes are never updated, three items of size 32 share one bin
   * of capacity 64: the bin still records 32, so every item passes the
   * check, and the bin ends up holding 96.
   */
  lemma ThreeHalvesShareOneBin()
    ensures var sizes: seq<Int32> := [32, 32, 32];
      BinPackBySizeSpec(sizes, 64, Identity) == [Bin(sizes, 32)]
  {
    var two: seq<Int32> := [32, 32];
    var sizes: seq<Int32> := [32, 32, 32];
    assert SortedDescending(sizes, Identity);
    OrderByDescendingOfSorted(sizes, Identity);
    PackTwoThirtyTwo();
    SumBySizeOf<Int32>(Identity, 32, 32);
    assert Wrap32(32 + 32) == 64;
    assert FirstFit([Bin(two, 32)], 32, 64, SumBySize<Int32>(Identity)) == 0;
    assert two + [32] == sizes;
    assert sizes[..2] == two;
  }

  lemma PackOneHundred()
    ensures Packed([100 as Int32], 64, SumBySize<Int32>(Identity)) == [Bin([100], 100)]
  {
    SumBySizeFromEmpty<Int32>(Identity, 100);
    assert [100 as Int32][..0] == [];
  }

  lemma HundredThenTenSorted()
    ensures SortedDescending<Int32>([100, 10], Identity)
  {
    var sizes: seq<Int32> := [100, 10];
    forall i, j | 0 <= i < j < |sizes|
      ensures Identity(sizes[i]) >= Identity(sizes[j])
    {
      assert i == 0 && j == 1;
    }
  }

  /** An item of size 10 does not fit a bin recorded at 100, so it opens a second bin. */
  lemma PackHundredThenTen()
    ensures Packed([100 as Int32, 10], 64, SumBySize<Int32>(Identity)) == [Bin([100], 100), Bin([10], 10)]
  {
    var one: seq<Int32> := [100];
    var sizes: seq<Int32> := [100, 10];
    var sel := SumBySize<Int32>(Identity);
    var bins: seq<Bin<Int32>> := [Bin(one, 100)];
    var ten: seq<Int32> := [10];
    assert Packed(sizes, 64, sel) == Place(bins, 10, 64, sel) by {
      PackOneHundred();
      assert sizes[..1] == one;
    }
    assert FirstFit(bins, 10, 64, sel) == 1 by {
      SumBySizeOf<Int32>(Identity, 100, 10);
      assert Wrap32(100 + 10) == 110;
    }
    assert sel(0, 10) == 10 by {
      SumBySizeFromEmpty<Int32>(Identity, 10);
    }
    assert bins + [Bin(ten, 10)] == [Bin(one, 100), Bin(ten, 10)];
  }

  /**
   * An item too large for any bin, even for an empty one, is not an error:
   * it gets a bin of its own that records its size.
   */
  lemma HundredAndTenPacking()
    ensures var sizes: seq<Int32> := [100, 10];
      BinPackBySizeSpec(sizes, 64, Identity) == [Bin([100], 100), Bin([10], 10)]
  {
    var sizes: seq<Int32> := [100, 10];
    HundredThenTenSorted();
    OrderByDescendingOfSorted(sizes, Identity);
    PackHundredThenTen();
  }

  /**
   * In general: while sizes are non-negative and no two of them add up
   * past int.MaxValue (so the capacity check never wraps), an item larger
   * than the bin size opens a bin that no other item joins.
   */
  lemma OversizedItemGetsOwnBin<T>(self: seq<T>, binSize: Int32, sizeSelector: T -> Int32)
    requires forall x :: x in self ==> 0 <= sizeSelector(x)
    requires forall x, y :: x in self && y in self ==> sizeSelector(x) + sizeSelector(y) <= MaxInt32
    ensures var bins := BinPackBySizeSpec(self, binSize, sizeSelector);
      forall j, t :: 0 <= j < |bins| && 0 <= t < |bins[j].items| && sizeSelector(bins[j].items[t]) > binSize ==>
        bins[j].items == [bins[j].items[t]]
  {
    var bins := BinPackBySizeSpec(self, binSize, sizeSelector);
    FirstFitDecreasing(self, binSize, sizeSelector, SumBySize(sizeSelector));
    forall j, t | 0 <= j < |bins| && 0 <= t < |bins[j].items| && sizeSelector(bins[j].items[t]) > binSize
      ensures bins[j].items == [bins[j].items[t]]
    {
      OversizedItemAlone(bins, self, binSize, sizeSelector, j, t);
    }
  }

  /** One bin of a layout that holds an oversized item holds nothing else. */
  lemma OversizedItemAlone<T>(bins: seq<Bin<T>>, self: seq<T>, binSize: Int32, sizeSelector: T -> Int32, j: nat, t: nat)
    requires FirstFitLayout(bins, binSize, SumBySize(sizeSelector))
    requires multiset(Flatten(bins)) == multiset(self)
    requires forall x :: x in self ==> 0 <= sizeSelector(x)
    requires forall x, y :: x in self && y in self ==> sizeSelector(x) + sizeSelector(y) <= MaxInt32
    requires j < |bins| && t < |bins[j].items| && sizeSelector(bins[j].items[t]) > binSize
    ensures bins[j].items == [bins[j].items[t]]
  {
    var b := bins[j].items;
    SumBySizeFromEmpty(sizeSelector, b[0]);
    InFlatten(bins, j, 0);
    if t > 0 {
      InFlatten(bins, j, t);
      SumBySizeOf(sizeSelector, bins[j].size, b[t]);
      assert false;
    }
    if |b| > 1 {
      InFlatten(bins, j, 1);
      SumBySizeOf(sizeSelector, bins[j].size, b[1]);
      assert false;
    }
  }
}

=== FILE: Int32Arithmetic.dfy ===
/**
 * The C# `int`: 32-bit two's complement values, the wrap-around of
 * unchecked arithmetic and the `%` operator, which truncates toward zero.
 * Dafny's own `int` is unbounded and its `%` is Euclidean, so both are
 * written out here.
 */
module Int32Arithmetic {

  const MinInt32: int := -0x8000_0000
  const MaxInt32: int := 0x7FFF_FFFF

  /** The values of a C# `int`. */
  type Int32 = x: int | MinInt32 <= x <= MaxInt32

  /** Unchecked C# arithmetic: the mathematical result taken modulo 2^32. */
  function Wrap32(x: int): (r: Int32)
    ensures (r - x) % 0x1_0000_0000 == 0
    ensures MinInt32 <= x <= MaxInt32 ==> r == x
  {
    var m := x % 0x1_0000_0000;
    if m <= MaxInt32 then m else m - 0x1_0000_0000
  }

  function Abs(x: int): nat {
    if x < 0 then -x else x
  }

  /**
   * The C# `%` operator: the remainder of the division truncated toward
   * zero, so it takes the sign of the dividend. `x % 0` throws, and so
   * does `int.MinValue % -1`.
   */
  function CsRemainder(a: Int32, b: Int32): (r: Int32)
    requires b != 0 && !(a == MinInt32 && b == -1)
    ensures (a - r) % Abs(b) == 0
    ensures Abs(r) < Abs(b)
    ensures r == 0 || (r < 0 <==> a < 0)
  {
    var d := Abs(b);
    var x: int := a;
    if x >= 0 then
      ModUnique(x - x % d, d, x / d, 0);
      x % d
    else
      ModUnique(x + (-x) % d, d, -((-x) / d), 0);
      -((-x) % d)
  }

  lemma MulAtLeast(d: int, k: int)
    requires d > 0 && k >= 1
    ensures d * k >= d
  {
  }

  /** Euclidean remainders are unique: x = d * q + r with 0 <= r < d fixes r. */
  lemma ModUnique(x: int, d: int, q: int, r: int)
    requires d > 0 && 0 <= r < d && x == d * q + r
    ensures x % d == r
  {
    var k := q - x / d;
    assert d * k == x % d - r;
    if k >= 1 {
      MulAtLeast(d, k);
    } else if k <= -1 {
      MulAtLeast(d, -k);
    }
  }
}

=== FILE: Linq.dfy ===
/**
 * The LINQ operators the generator relies on, stated as functions:
 * `OrderByDescending` (a stable sort on an `int` key), `Reverse` and
 * `Max`.
 */
module Linq {
  import opened Int32Arithmetic

  /** Keys never increase from left to right. */
  ghost predicate SortedDescending<T>(s: seq<T>, key: T -> Int32) {
    forall i, j :: 0 <= i < j < |s| ==> key(s[i]) >= key(s[j])
  }

  /** The elements of `s` whose key is `k`, in their order in `s`. */
  function WithKey<T>(s: seq<T>, key: T -> Int32, k: int): seq<T> {
    if s == [] then []
    else (if key(s[0]) == k then [s[0]] else []) + WithKey(s[1..], key, k)
  }

  /** Inserts `x` after every element whose key is at least its own. */
  function InsertDescending<T>(x: T, s: seq<T>, key: T -> Int32): seq<T> {
    if s == [] then [x]
    else if key(s[0]) >= key(x) then [s[0]] + InsertDescending(x, s[1..], key)
    else [x] + s
  }

  /**
   * `OrderByDescending`: a stable sort, largest key first. Each element
   * is inserted behind the earlier elements whose key is at least its own,
   * so equal keys keep their input order.
   */
  function OrderByDescending<T>(s: seq<T>, key: T -> Int32): seq<T> {
    if s == [] then []
    else InsertDescending(s[|s| - 1], OrderByDescending(s[..|s| - 1], key), key)
  }

  lemma {:induction false} InsertDescendingPermutation<T>(x: T, s: seq<T>, key: T -> Int32)
    ensures multiset(InsertDescending(x, s, key)) == multiset(s) + multiset{x}
  {
    if s != [] && key(s[0]) >= key(x) {
      InsertDescendingPermutation(x, s[1..], key);
      assert s == [s[0]] + s[1..];
    }
  }

  lemma {:induction false} InsertDescendingSorted<T>(x: T, s: seq<T>, key: T -> Int32)
    requires SortedDescending(s, key)
    ensures SortedDescending(InsertDescending(x, s, key), key)
  {
    if s != [] && key(s[0]) >= key(x) {
      InsertDescendingSorted(x, s[1..], key);
      var r := InsertDescending(x, s[1..], key);
      InsertDescendingPermutation(x, s[1..], key);
      forall j | 0 <= j < |r|
        ensures key(s[0]) >= key(r[j])
      {
        assert r[j] in multiset(r);
        if r[j] != x {
          assert r[j] in multiset(s[1..]);
          var i :| 0 <= i < |s[1..]| && s[1..][i] == r[j];
          assert s[i + 1] == r[j];
        }
      }
      var t := [s[0]] + r;
      forall i, j | 0 <= i < j < |t|
        ensures key(t[i]) >= key(t[j])
      {
        assert t[j] == r[j - 1];
        if i > 0 {
          assert t[i] == r[i - 1];
        }
      }
    }
  }

  /** OrderByDescending yields its input rearranged, largest key first. */
  lemma {:induction false} OrderByDescendingSortsPermutation<T>(s: seq<T>, key: T -> Int32)
    ensures SortedDescending(OrderByDescending(s, key), key)
    ensures multiset(OrderByDescending(s, key)) == multiset(s)
  {
    if s != [] {
      var init := s[..|s| - 1];
      OrderByDescendingSortsPermutation(init, key);
      InsertDescendingSorted(s[|s| - 1], OrderByDescending(init, key), key);
      InsertDescendingPermutation(s[|s| - 1], OrderByDescending(init, key), key);
      assert s == init + [s[|s| - 1]];
    }
  }

  lemma {:induction false} WithKeyAppend<T>(a: seq<T>, b: seq<T>, key: T -> Int32, k: int)
    ensures WithKey(a + b, key, k) == WithKey(a, key, k) + WithKey(b, key, k)
  {
    if a == [] {
      assert a + b == b;
    } else {
      WithKeyAppend(a[1..], b, key, k);
      var head := if key(a[0]) == k then [a[0]] else [];
      calc {
        WithKey(a + b, key, k);
      == { assert (a + b)[0] == a[0]; assert (a + b)[1..] == a[1..] + b; }
        head + WithKey(a[1..] + b, key, k);
      ==
        head + (WithKey(a[1..], key, k) + WithKey(b, key, k));
      ==
        (head + WithKey(a[1..], key, k)) + WithKey(b, key, k);
      }
    }
  }

  lemma {:induction false} WithKeyNone<T>(s: seq<T>, key: T -> Int32, k: int)
    requires forall i :: 0 <= i < |s| ==> key(s[i]) != k
    ensures WithKey(s, key, k) == []
  {
    if s != [] {
      WithKeyNone(s[1..], key, k);
    }
  }

  lemma {:induction false} InsertDescendingWithKey<T>(x: T, s: seq<T>, key: T -> Int32, k: int)
    requires SortedDescending(s, key)
    ensures WithKey(InsertDescending(x, s, key), key, k)
         == WithKey(s, key, k) + (if key(x) == k then [x] else [])
  {
    if s == [] {
    } else if key(s[0]) >= key(x) {
      assert SortedDescending(s[1..], key) by {
        forall i, j | 0 <= i < j < |s[1..]|
          ensures key(s[1..][i]) >= key(s[1..][j])
        {
          assert s[1..][i] == s[i + 1] && s[1..][j] == s[j + 1];
        }
      }
      InsertDescendingWithKey(x, s[1..], key, k);
      var head := if key(s[0]) == k then [s[0]] else [];
      var last := if key(x) == k then [x] else [];
      var r := InsertDescending(x, s[1..], key);
      calc {
        WithKey(InsertDescending(x, s, key), key, k);
      == { assert InsertDescending(x, s, key) == [s[0]] + r; assert ([s[0]] + r)[0] == s[0]; assert ([s[0]] + r)[1..] == r; }
        head + WithKey(r, key, k);
      ==
        head + (WithKey(s[1..], key, k) + last);
      ==
        (head + WithKey(s[1..], key, k)) + last;
      }
    } else {
      assert InsertDescending(x, s, key)[1..] == s;
      if key(x) == k {
        WithKeyNone(s, key, k);
      }
    }
  }

  /** The sort is stable: the elements with any given key keep their order. */
  lemma {:induction false} OrderByDescendingStable<T>(s: seq<T>, key: T -> Int32, k: int)
    ensures WithKey(OrderByDescending(s, key), key, k) == WithKey(s, key, k)
  {
    if s != [] {
      var init, last := s[..|s| - 1], s[|s| - 1];
      var tail := if key(last) == k then [last] else [];
      OrderByDescendingStable(init, key, k);
      assert WithKey(OrderByDescending(s, key), key, k) == WithKey(OrderByDescending(init, key), key, k) + tail by {
        OrderByDescendingSortsPermutation(init, key);
        InsertDescendingWithKey(last, OrderByDescending(init, key), key, k);
      }
      assert WithKey(s, key, k) == WithKey(init, key, k) + tail by {
        assert s == init + [last];
        WithKeyAppend(init, [last], key, k);
        assert WithKey([last], key, k) == tail + WithKey([], key, k);
      }
    }
  }

  lemma {:induction false} InsertDescendingLast<T>(x: T, s: seq<T>, key: T -> Int32)
    requires forall i :: 0 <= i < |s| ==> key(s[i]) >= key(x)
    ensures InsertDescending(x, s, key) == s + [x]
  {
    if s != [] {
      InsertDescendingLast(x, s[1..], key);
      assert s == [s[0]] + s[1..];
    }
  }

  /** A sequence already in descending key order is left as it is. */
  lemma {:induction false} OrderByDescendingOfSorted<T>(s: seq<T>, key: T -> Int32)
    requires SortedDescending(s, key)
    ensures OrderByDescending(s, key) == s
  {
    if s != [] {
      var init := s[..|s| - 1];
      OrderByDescendingOfSorted(init, key);
      InsertDescendingLast(s[|s| - 1], init, key);
      assert s == init + [s[|s| - 1]];
    }
  }

  /** `Reverse`: the elements in the opposite order. */
  function Reverse<T>(s: seq<T>): (r: seq<T>)
    ensures |r| == |s|
    ensures forall i :: 0 <= i < |s| ==> r[i] == s[|s| - 1 - i]
  {
    if s == [] then [] else Reverse(s[1..]) + [s[0]]
  }

  /** The first element of the reverse is the last element, and the rest is the reverse of the rest. */
  lemma {:induction false} ReverseDropLast<T>(s: seq<T>)
    requires |s| > 0
    ensures Reverse(s)[0] == s[|s| - 1]
    ensures Reverse(s)[1..] == Reverse(s[..|s| - 1])
  {
    if |s| > 1 {
      var tail, init := s[1..], s[..|s| - 1];
      ReverseDropLast(tail);
      assert tail[..|tail| - 1] == init[1..];
      calc {
        Reverse(init);
        Reverse(init[1..]) + [init[0]];
        Reverse(tail)[1..] + [s[0]];
        (Reverse(tail) + [s[0]])[1..];
        Reverse(s)[1..];
      }
    }
  }

  /** `Max` of a non-empty sequence. */
  function Max(s: seq<nat>): nat
    requires |s| > 0
  {
    if |s| == 1 then s[0]
    else
      var rest := Max(s[1..]);
      if s[0] >= rest then s[0] else rest
  }

  /** `Max` is an element that no element exceeds. */
  lemma {:induction false} MaxIsGreatest(s: seq<nat>)
    requires |s| > 0
    ensures Max(s) in s
    ensures forall i :: 0 <= i < |s| ==> s[i] <= Max(s)
  {
    if |s| > 1 {
      MaxIsGreatest(s[1..]);
      forall i | 1 <= i < |s|
        ensures s[i] <= Max(s)
      {
        assert s[i] == s[1..][i - 1];
      }
    }
  }

  /** Taking one more element of a sequence adds that element to the multiset. */
  lemma MultisetOfPrefix<T>(s: seq<T>, k: nat)
    requires k < |s|
    ensures multiset(s[..k + 1]) == multiset(s[..k]) + multiset{s[k]}
  {
    assert s[..k + 1] == s[..k] + [s[k]];
  }
}

=== FILE: Schema.dfy ===
/**
 * The schema the generator reads: a document is an ordered array of
 * types; a type is a record (its `Properties`) or, when `Cases` is
 * present, a union of named cases. A property is a leaf (`Name` and
 * `Type`) or, when `Cases` is present, an inline union whose unnamed cases
 * hold properties of their own, so inline unions nest to any depth.
 *
 * A C# array that may be null is a datatype with a null constructor and
 * one holding a sequence no longer than a C# array can be. The arrays
 * through which properties nest have a datatype each, rather than a
 * generic `Option`, so that the elements of an array are structurally
 * smaller than the property or case holding it.
 */
module Schema {
  import opened Wrappers
  import opened Int32Arithmetic

  /** The contents of a C# array: at most `int.MaxValue` elements. */
  type CsArray<T> = s: seq<T> | |s| <= MaxInt32

  /** A `SchemaProperty[]` that may be null. */
  datatype PropertyArray = NullProperties | Properties(items: CsArray<SchemaProperty>)

  /** A `SchemaPropertyUnionCase[]` that may be null. */
  datatype CaseArray = NullCases | Cases(items: CsArray<SchemaPropertyUnionCase>)

  /** A case of an inline union: properties only, no name. */
  datatype SchemaPropertyUnionCase = SchemaPropertyUnionCase(properties: PropertyArray)

  /** A property: a leaf, or an inline union when `cases` is present. */
  datatype SchemaProperty = SchemaProperty(
    name: string,
    typeName: string,
    cases: CaseArray)
  {
    predicate IsUnion() {
      cases.Cases?
    }
  }

  /** A case of a top-level union: a name and properties. */
  datatype SchemaUnionCase = SchemaUnionCase(name: string, properties: PropertyArray)

  /** A type: a record with `properties`, or a union when `cases` is present. */
  datatype SchemaType = SchemaType(
    name: string,
    properties: PropertyArray,
    cases: Option<CsArray<SchemaUnionCase>>)
  {
    predicate IsUnion() {
      cases.Some?
    }
  }

  /** A schema document: the types in the order they are written. */
  datatype SchemaTypeDefinitions = SchemaTypeDefinitions(types: Option<CsArray<SchemaType>>)

  /** Whether a property is a union at all, whatever its leaf fields say. */
  lemma PropertyUnionIgnoresLeafFields(p: SchemaProperty, name: string, typeName: string)
    ensures p.(name := name, typeName := typeName).IsUnion() == p.IsUnion()
    ensures p.IsUnion() <==> p.cases != NullCases
  {
  }

  /** Whether a type is a union depends only on `cases`, not on `properties`. */
  lemma TypeUnionIgnoresProperties(t: SchemaType, properties: PropertyArray)
    ensures t.(properties := properties).IsUnion() == t.IsUnion()
    ensures !t.IsUnion() <==> t.cases == None
  {
  }

  /**
   * `p` holds inline unions nested `depth` deep: it is a union, and below
   * depth 0 one of its cases has a property nested one less.
   */
  ghost predicate NestedUnion(p: SchemaProperty, depth: nat)
    decreases depth
  {
    && p.IsUnion()
    && (depth > 0 ==>
         exists c, q :: c in p.cases.items && c.properties.Properties? && q in c.properties.items && NestedUnion(q, depth - 1))
  }

  /** An inline union whose only case holds, as its only property, `Nest(depth - 1)`. */
  function Nest(depth: nat): (p: SchemaProperty)
    ensures p.IsUnion()
  {
    if depth == 0 then SchemaProperty("leaf", "bool", Cases([]))
    else SchemaProperty("nested", "", Cases([SchemaPropertyUnionCase(Properties([Nest(depth - 1)]))]))
  }

  /** Inline unions nest to any depth. */
  lemma {:induction false} NestingIsUnbounded(depth: nat)
    ensures NestedUnion(Nest(depth), depth)
  {
    if depth > 0 {
      NestingIsUnbounded(depth - 1);
      var c := Nest(depth).cases.items[0];
      assert c in Nest(depth).cases.items;
      assert Nest(depth - 1) in c.properties.items;
    }
  }
}

=== FILE: Utilities.dfy ===
/**
 * The bit-arithmetic helpers of the generator: next power of two, the
 * SWAR population count, the width of a union discriminant and the
 * alignment-aware size accumulation.
 *
 * The unsigned helpers work on `bv32`, so every `uint` operation wraps
 * modulo 2^32 exactly as in C#. The signed ones work on `Int32`.
 */
module Utilities {

  import opened Int32Arithmetic

  // ---------------------------------------------------------------------
  // NextPowerOfTwo
  // ---------------------------------------------------------------------

  /** 2^k as a 32-bit word. */
  function Pow(k: bv32): bv32
    requires k < 32
  {
    (1 as bv32) << k
  }

  ghost predicate IsPowerOfTwo(r: bv32) {
    exists k: bv32 :: k < 32 && r == Pow(k)
  }

  /** Copies the highest set bit of x into every lower position. */
  function SmearRight(x: bv32): bv32 {
    var x2 := x | (x >> 1);
    var x3 := x2 | (x2 >> 2);
    var x4 := x3 | (x3 >> 4);
    var x5 := x4 | (x4 >> 8);
    x5 | (x5 >> 16)
  }

  /**
   * Decrements, smears the highest set bit into every lower position and
   * increments. The decrement and the increment are `uint` operations, so
   * they wrap: for 1 <= v <= 2^31 the result is the least power of two
   * that is at least v, and 0 and everything above 2^31 give 0.
   */
  function NextPowerOfTwo(v: bv32): (r: bv32)
    ensures v - 1 < 0x8000_0000 ==> IsPowerOfTwo(r) && r >> 1 <= v - 1 < r
    ensures v == 0 || v > 0x8000_0000 ==> r == 0
  {
    SmearRightLeastPowerAbove(v - 1);
    SmearRight(v - 1) + 1
  }

  /** Every x in [2^(k-1), 2^k) smears to 2^k - 1. */
  lemma SmearRightOfRange(x: bv32, k: bv32)
    requires k < 32
    requires Pow(k) >> 1 <= x < Pow(k)
    ensures SmearRight(x) + 1 == Pow(k)
  {
  }

  lemma PowHalf(k: bv32)
    requires 1 <= k < 32
    ensures Pow(k) >> 1 == Pow(k - 1)
  {
  }

  lemma {:induction false} SmearRightBelow(x: bv32, k: bv32)
    requires k < 32 && x < Pow(k)
    ensures IsPowerOfTwo(SmearRight(x) + 1)
    decreases k
  {
    if k == 0 || Pow(k) >> 1 <= x {
      SmearRightOfRange(x, k);
    } else {
      PowHalf(k);
      SmearRightBelow(x, k - 1);
    }
  }

  lemma SmearRightBrackets(x: bv32, k: bv32)
    requires k < 32 && x < 0x8000_0000 && SmearRight(x) + 1 == Pow(k)
    ensures Pow(k) >> 1 <= x < Pow(k)
  {
  }

  /** Below 2^31, smearing and adding one gives the least power of two above x. */
  lemma SmearRightLeastPowerAbove(x: bv32)
    ensures x < 0x8000_0000 ==> IsPowerOfTwo(SmearRight(x) + 1)
    ensures x < 0x8000_0000 ==> (SmearRight(x) + 1) >> 1 <= x < SmearRight(x) + 1
  {
    if x < 0x8000_0000 {
      assert Pow(31) == 0x8000_0000;
      SmearRightBelow(x, 31);
      var k: bv32 :| k < 32 && SmearRight(x) + 1 == Pow(k);
      SmearRightBrackets(x, k);
    }
  }

  /**
   * Every v with 2^(k-1) < v <= 2^k, that is with v - 1 in
   * [2^(k-1), 2^k), is rounded up to exactly 2^k.
   */
  lemma NextPowerOfTwoOfRange(v: bv32, k: bv32)
    requires k < 32
    requires Pow(k) >> 1 <= v - 1 < Pow(k)
    ensures NextPowerOfTwo(v) == Pow(k)
  {
    var x := v - 1;
    SmearRightOfRange(x, k);
    assert NextPowerOfTwo(v) == SmearRight(x) + 1;
  }

  /** A power of two is its own next power of two. */
  lemma NextPowerOfTwoIdempotent(v: bv32)
    requires IsPowerOfTwo(v)
    ensures NextPowerOfTwo(v) == v
  {
    var k: bv32 :| k < 32 && v == Pow(k);
    NextPowerOfTwoOfRange(v, k);
  }

  // ---------------------------------------------------------------------
  // CountBitsSet
  // ---------------------------------------------------------------------

  function Bit(v: bv32, i: bv32): bv32
    requires i < 32
  {
    (v >> i) & 1
  }

  /** The number of one bits among the low eight bits of `b`. */
  function ByteOnes(b: bv32): bv32 {
    Bit(b, 0) + Bit(b, 1) + Bit(b, 2) + Bit(b, 3) + Bit(b, 4) + Bit(b, 5) + Bit(b, 6) + Bit(b, 7)
  }

  /** The number of one bits of `v`, counted byte by byte. */
  function PopCount(v: bv32): bv32 {
    Sum4(ByteOnes(v), ByteOnes(v >> 8), ByteOnes(v >> 16), ByteOnes(v >> 24))
  }

  /**
   * The first three SWAR steps: each byte of the result holds the number
   * of one bits of the same byte of `v`.
   */
  function ByteCounts(v: bv32): bv32 {
    var v1 := v - ((v >> 1) & 0x5555_5555);
    var v2 := (v1 & 0x3333_3333) + ((v1 >> 2) & 0x3333_3333);
    (v2 + (v2 >> 4)) & 0x0F0F_0F0F
  }

  /**
   * The last step multiplies by 0x01010101 and keeps the top byte, which
   * is the number of one bits of `v`.
   */
  function CountBitsSet(v: bv32): (r: bv32)
    ensures r == PopCount(v)
    ensures r <= 32
  {
    ByteCountsSmall(v);
    TopByteIsByteSum(ByteCounts(v));
    ByteCount0(v);
    ByteCount1(v);
    ByteCount2(v);
    ByteCount3(v);
    PopCountAtMost32(v);
    MulTopByte(ByteCounts(v))
  }

  function MulTopByte(x: bv32): bv32 {
    (x * 0x0101_0101) >> 24
  }

  function Sum4(a: bv32, b: bv32, c: bv32, d: bv32): bv32 {
    a + b + c + d
  }

  /**
   * When every byte is below 16, the multiply leaves the sum of the four
   * bytes in the top byte; the partial products above bit 31 are lost to
   * the wrap-around of the 32-bit multiply.
   */
  lemma TopByteIsByteSum(x: bv32)
    requires x & 0xF0F0_F0F0 == 0
    ensures MulTopByte(x) == Sum4(x & 0xFF, (x >> 8) & 0xFF, (x >> 16) & 0xFF, x >> 24)
  {
  }

  lemma ByteCountsSmall(v: bv32)
    ensures ByteCounts(v) & 0xF0F0_F0F0 == 0
  {
  }

  lemma ByteCount0(v: bv32)
    ensures ByteCounts(v) & 0xFF == ByteOnes(v)
  {
  }

  lemma ByteCount1(v: bv32)
    ensures (ByteCounts(v) >> 8) & 0xFF == ByteOnes(v >> 8)
  {
  }

  lemma ByteCount2(v: bv32)
    ensures (ByteCounts(v) >> 16) & 0xFF == ByteOnes(v >> 16)
  {
  }

  lemma ByteCount3(v: bv32)
    ensures ByteCounts(v) >> 24 == ByteOnes(v >> 24)
  {
  }

  lemma ByteOnesBound(b: bv32)
    ensures ByteOnes(b) <= 8
  {
  }

  lemma Sum4Bound(a: bv32, b: bv32, c: bv32, d: bv32)
    requires a <= 8 && b <= 8 && c <= 8 && d <= 8
    ensures Sum4(a, b, c, d) <= 32
  {
  }

  lemma PopCountAtMost32(v: bv32)
    ensures PopCount(v) <= 32
  {
    ByteOnesBound(v);
    ByteOnesBound(v >> 8);
    ByteOnesBound(v >> 16);
    ByteOnesBound(v >> 24);
    Sum4Bound(ByteOnes(v), ByteOnes(v >> 8), ByteOnes(v >> 16), ByteOnes(v >> 24));
  }

  /** 2^k - 1 has exactly k one bits. */
  lemma LowMaskOnes(k: bv32)
    requires k < 32
    ensures PopCount(Pow(k) - 1) == k
  {
  }

  // ---------------------------------------------------------------------
  // GetMinimumBitsForInt
  // ---------------------------------------------------------------------

  /** The unsigned core of GetMinimumBitsForInt. */
  function MinimumBits(m: bv32): bv32 {
    CountBitsSet(NextPowerOfTwo(m) - 1)
  }

  /**
   * MinimumBits is the ceiling of log2: every m with 2^(k-1) < m <= 2^k,
   * that is with m - 1 in [2^(k-1), 2^k), needs exactly k bits.
   */
  lemma MinimumBitsIsCeilLog2(m: bv32, k: bv32)
    requires k < 32
    requires Pow(k) >> 1 <= m - 1 < Pow(k)
    ensures MinimumBits(m) == k
  {
    NextPowerOfTwoOfRange(m, k);
    LowMaskOnes(k);
  }

  /**
   * The number of bits the generator gives the discriminant of a union
   * with n cases: 1 when n <= 2, otherwise ceil(log2(n - 2)). For n >= 3
   * the `(uint)` cast of n - 2 keeps its value.
   */
  function GetMinimumBitsForInt(n: Int32): (r: nat)
    ensures n <= 2 ==> r == 1
    ensures r <= 32
  {
    if n <= 2 then
      1
    else
      var m := (n - 2) as bv32;
      MinimumBits(m) as nat
  }

  /**
   * For n >= 3 cases the discriminant has ceil(log2(n - 2)) bits: k bits
   * exactly when 2^(k-1) < n - 2 <= 2^k.
   */
  lemma GetMinimumBitsForIntIsCeilLog2(n: Int32, k: bv32)
    requires 3 <= n && k < 32
    requires Pow(k) >> 1 <= ((n - 2) as bv32) - 1 < Pow(k)
    ensures GetMinimumBitsForInt(n) == k as nat
  {
    MinimumBitsIsCeilLog2((n - 2) as bv32, k);
  }

  /**
   * Three cases get a 0-bit discriminant and four cases a 1-bit one,
   * which cannot tell all the cases apart.
   */
  lemma GetMinimumBitsForIntThreeAndFour()
    ensures GetMinimumBitsForInt(3) == 0
    ensures GetMinimumBitsForInt(4) == 1
  {
    MinimumBitsIsCeilLog2(1, 0);
    MinimumBitsIsCeilLog2(2, 1);
  }

  /** Five and six cases get 2 bits. */
  lemma GetMinimumBitsForIntFiveAndSix()
    ensures GetMinimumBitsForInt(5) == 2 && GetMinimumBitsForInt(6) == 2
  {
    MinimumBitsIsCeilLog2(3, 2);
    MinimumBitsIsCeilLog2(4, 2);
  }

  /** Seven to ten cases get 3 bits. */
  lemma GetMinimumBitsForIntSevenToTen()
    ensures GetMinimumBitsForInt(7) == 3 && GetMinimumBitsForInt(8) == 3
    ensures GetMinimumBitsForInt(9) == 3 && GetMinimumBitsForInt(10) == 3
  {
    MinimumBitsIsCeilLog2(5, 3);
    MinimumBitsIsCeilLog2(6, 3);
    MinimumBitsIsCeilLog2(7, 3);
    MinimumBitsIsCeilLog2(8, 3);
  }

  /** The largest int, 2^31 - 1, gets 31 bits. */
  lemma GetMinimumBitsForIntLargest()
    ensures GetMinimumBitsForInt(MaxInt32) == 31
  {
    MinimumBitsIsCeilLog2(0x7FFF_FFFD, 31);
  }

  // ---------------------------------------------------------------------
  // AddWithAlignment
  // ---------------------------------------------------------------------

  /**
   * Appends an item to a block: an empty block takes the item as is,
   * otherwise the block is padded by `itemAlignment - blockSize % itemAlignment`
   * before the item is added. The C# remainder throws when the alignment is
   * zero (and for int.MinValue % -1), which the precondition excludes.
   */
  function AddWithAlignment(blockSize: Int32, itemSize: Int32, itemAlignment: Int32): (r: Int32)
    requires blockSize != 0 ==> itemAlignment != 0 && !(blockSize == MinInt32 && itemAlignment == -1)
    ensures blockSize == 0 ==> r == itemSize
  {
    if blockSize == 0 then
      itemSize
    else
      var padding := Wrap32(itemAlignment - CsRemainder(blockSize, itemAlignment));
      Wrap32(Wrap32(blockSize + padding) + itemSize)
  }

  /**
   * For a positive block and alignment, and no overflow, the item starts
   * at the next multiple of the alignment strictly after the block: the
   * padding is between 1 and the alignment, and a block that is already
   * aligned is still padded by a whole alignment unit.
   */
  lemma AddWithAlignmentPadding(blockSize: Int32, itemSize: Int32, itemAlignment: Int32)
    requires 0 < blockSize && 0 < itemAlignment && 0 <= itemSize
    requires blockSize + itemAlignment + itemSize <= MaxInt32
    ensures var padding := AddWithAlignment(blockSize, itemSize, itemAlignment) - blockSize - itemSize;
      && 1 <= padding <= itemAlignment
      && (blockSize + padding) % itemAlignment == 0
      && (blockSize % itemAlignment == 0 ==> padding == itemAlignment)
  {
    var rem := CsRemainder(blockSize, itemAlignment);
    assert rem == blockSize % itemAlignment;
    ModUnique(blockSize + (itemAlignment - rem), itemAlignment, blockSize / itemAlignment + 1, 0);
  }
}

=== FILE: Wrappers.dfy ===
/**
 * Option and Result types. A C# reference that may be null becomes an
 * Option; an operation that may throw becomes a function or method
 * returning a Result, whose Failure carries the error.
 */
module Wrappers {

  datatype Option<+T> = None | Some(value: T)

  datatype Result<+T, +E> = Success(value: T) | Failure(error: E) {

    predicate IsFailure() {
      Failure?
    }

    function PropagateFailure<U>(): Result<U, E>
      requires Failure?
    {
      Failure(error)
    }

    function Extract(): T
      requires Success?
    {
      value
    }
  }
}
